=== FILE: README.md ===
# Mining questionnaire evaluation: a Dafny model

This project models the decision logic of the RAIMES mining-evaluation
service. Two files are covered.

`GeminiAnalyzer` in `src/service/api_gemini.py` scores a JSON questionnaire. It asks a
generative model for an analysis. It salvages a record from whatever text
comes back. When the model cannot be reached, it falls back to a
deterministic heuristic. That heuristic flattens the nested answers, then
scores their coverage, completeness and quality, clamped to [60, 95]. It also
writes a narrative and picks keyword-triggered recommendations.

`src/main.py` holds the HTTP handlers:

- `read_item`, which rejects negative ids;
- `analyze_questionnaire`, which turns any failure into a 500;
- an in-memory review store, `create_review` and `list_reviews`.

Modules, one per file:

| module | file | covers |
|---|---|---|
| `Wrappers` | wrappers.dfy | `Option` and `Result` |
| `Text` | text.dfy | `str.lower` (ASCII), `in`, `startswith`/`endswith`, `strip`, decimal rendering |
| `Json` | json.dfy | the JSON value tree; Python `dict` semantics as association lists |
| `Flattening` | flattening.dfy | `_flatten_dict` |
| `Heuristic` | heuristic.dfy | `_calculate_simple_score`, `_create_basic_analysis`, `_generate_recommendations_based_on_data`, `_generate_fallback_analysis` |
| `Extractor` | extractor.dfy | the regular expression and `_parse_analysis_result` |
| `Analyzer` | analyzer.dfy | `_process_supporting_file`, the prompt, `analyze_mining_evaluation` |
| `Api` | api.dfy | `read_item`, `analyze_questionnaire`, the review store |

Library calls are not modelled. They are passed in as the total functions of a
`Runtime` value:

- `json.loads`, with `None` for a `JSONDecodeError`;
- `str()` of a non-string value;
- the prompt template with its embedded `json.dumps`;
- lenient UTF-8 decoding.

The call to the generative model is a parameter `ask` that returns
`Replied(text)` or `Failed`. The clock is an opaque `Instant` value passed in.

Python dictionaries are association lists. `Lookup` finds the last binding of
a key. `DictOf` rebuilds `dict(items)`: a repeated key keeps its first
position and takes its last value. A JSON number is the `real` value of what
Python holds after `json.loads`: an integer exactly, a float as the value of
its double. Rounding and underflow of decimal literals (`0.1`, `1e-400`
becoming `0.0`) therefore belong to `loads`, which is a parameter. `True` counts as a positive number
in the quality bonus, because `isinstance(True, int)` holds in Python.

Behaviours of the code worth knowing:

- A reply that is not bare JSON is salvaged from its braces only when one
  brace-free `{...}` segment holds all three quoted markers `"analysis"`,
  `"score"` and `"recommendations"`, in that order
  (`src/service/api_gemini.py:270`). A reply that lacks any one of them gets
  the unstructured record with score 75 (`Extractor.EveryMarkerRequired`).
- Answers that `json.loads` rejects raise `ValueError`
  (`src/service/api_gemini.py:79-80`).
- The fallback score is the heuristic of `_calculate_simple_score` alone.
- On the fallback path the file name reaches the narrative even when the
  content is empty (`src/service/api_gemini.py:77`), although the prompt only
  mentions the file when both are non-empty
  (`Analyzer.NameReachesFallbackNarrative`).

## Model

| member | source | states |
|---|---|---|
| Text.Lower | src/service/api_gemini.py:153 | `lower()` maps each ASCII capital to its small letter and leaves every other character alone, position by position |
| Text.LowerIdempotent | src/service/api_gemini.py:252 | lower-casing twice is lower-casing once |
| Text.FindFrom | src/service/api_gemini.py:153 | the search behind `in`: the leftmost occurrence at or after the start, and `None` exactly when there is none |
| Text.ContainsIff | src/service/api_gemini.py:153 | the `in` test holds exactly when some position holds an occurrence |
| Text.StripStartsWithIff | src/service/api_gemini.py:265 | `strip().startswith(c)` for a non-space `c` holds exactly when the first non-whitespace character is `c` |
| Text.StripHead | src/service/api_gemini.py:265 | `strip()` starts with a non-space character exactly when `lstrip()` does |
| Text.TrimStartHead | src/service/api_gemini.py:265 | `lstrip()` starts with a non-space character exactly when that character is the first non-whitespace one of the text |
| Text.FirstNonSpace | src/service/api_gemini.py:265 | `lstrip()` removes exactly the whitespace before the first non-whitespace character and starts with it |
| Text.DecimalRoundTrip | src/main.py:37 | the decimal rendering of a natural number is all digits and reads back as the same number |
| Text.DecimalInjective | src/service/api_gemini.py:255-256 | different numbers have different decimal renderings |
| Json.Lookup | src/service/api_gemini.py:186 | a dictionary lookup is `None` exactly when the key is absent, and otherwise returns a value bound to the key |
| Json.LookupIsLast | src/service/api_gemini.py:186 | the value looked up is bound to the key by some item, and no later item has that key, so the last assignment wins |
| Json.LookupUnique | src/service/api_gemini.py:186 | in a dictionary with unique keys, looking up an entry's key returns that entry's value |
| Json.Put | src/service/api_gemini.py:186 | assigning a key keeps the keys unique, makes the lookup return the new value and changes no other key |
| Json.DictOf | src/service/api_gemini.py:186 | `dict(items)` has unique keys, no more entries than items, and every lookup equals the last binding in the items |
| Json.DictOfKeys | src/service/api_gemini.py:186 | a key is in `dict(items)` exactly when some item has that key |
| Json.DictOfFreshKey | src/service/api_gemini.py:186 | adding an item under a new key adds exactly one entry at the end |
| Json.DictOfKeysOnly | src/service/api_gemini.py:186 | the keys of `dict(items)` depend only on the keys of the items, not on the values |
| Json.AnalysisRecord | src/service/api_gemini.py:138-142 | the record has unique keys, and its `analysis`, `score` and `recommendations` lookups return the given text, the given score and the given recommendations as an array of strings |
| Flattening.ChildKey | src/service/api_gemini.py:181 | a nested key is `parent + "_" + key`, and a top-level key is unchanged |
| Flattening.Items | src/service/api_gemini.py:179-185 | the collected pairs hold no object values, number at most the non-object leaves, and carry the parent's prefix |
| Flattening.FlattenDict | src/service/api_gemini.py:177-186 | the flattened dictionary has unique keys, no object values, at most one entry per non-object leaf, and every key carries the parent's prefix |
| Flattening.PartInItems | src/service/api_gemini.py:180-185 | every pair produced by one field appears among the collected pairs |
| Flattening.LeafKeyKept | src/service/api_gemini.py:184-185 | a non-object value is found in the flattened dictionary under its child key |
| Flattening.TopLevelKeyKept | src/service/api_gemini.py:181 | at the top level, a non-object answer keeps its own key |
| Flattening.NestedKeyKept | src/service/api_gemini.py:181-183 | a leaf one level down is found under `parent_child` |
| Flattening.ItemsAppend | src/service/api_gemini.py:180-185 | flattening distributes over concatenating the fields |
| Flattening.ItemsSuffix | src/service/api_gemini.py:180-185 | past the end of the first run of fields, flattening the concatenation gives what flattening the second run gives |
| Flattening.ItemsSameTail | src/service/api_gemini.py:180-185 | the pairs collected from a position on depend only on the fields from that position on |
| Flattening.EmptyObjectContributesNothing | src/service/api_gemini.py:182-183 | an empty sub-object adds no pair to the flattening |
| Flattening.AppendFreshLeaf | src/service/api_gemini.py:179-186 | a new leaf under a key that neither the object nor its flattening holds adds exactly one entry, at the end, to the flattened dictionary |
| Flattening.FlattenKeysIgnoreLeafValue | src/service/api_gemini.py:180-186 | replacing a non-object value by another leaves the flattened keys unchanged |
| Heuristic.Render | src/service/api_gemini.py:153 | `str()` of a string is the string itself |
| Heuristic.CoveredCount | src/service/api_gemini.py:152-155 | the number of covered areas is at most the number of areas; it equals that number exactly when all are covered, and it is zero exactly when none is |
| Heuristic.CoveredCountAppend | src/service/api_gemini.py:152-155 | the count over two lists of areas is the sum of the two counts, so each area counts on its own |
| Heuristic.CoveredCountOne | src/service/api_gemini.py:153-155 | a single area counts 3 points exactly when some entry mentions it |
| Heuristic.CoverageBonus | src/service/api_gemini.py:148-155 | the coverage bonus is at most 18; it is 18 exactly when all six areas appear in some key or rendered value, and 0 exactly when none does |
| Heuristic.CoverageBonusPerArea | src/service/api_gemini.py:148-155 | the coverage bonus is the sum, over the six key areas, of 3 points for each area some key or rendered value mentions |
| Heuristic.CoverageMonotone | src/service/api_gemini.py:152-155 | one more entry never lowers the number of covered areas |
| Heuristic.CoverageBonusMonotone | src/service/api_gemini.py:148-155 | one more entry never lowers the coverage bonus |
| Heuristic.CompletenessBonus | src/service/api_gemini.py:158 | the completeness bonus is twice the entry count below ten entries and 20 from ten entries up |
| Heuristic.QualityOf | src/service/api_gemini.py:165-172 | per value: +2 exactly for a string with a positive word; −1 exactly for a string with a negative word and no positive one; +1 exactly for a positive number or `True`; else 0 |
| Heuristic.PositiveWinsOverNegative | src/service/api_gemini.py:169-172 | a string with both a positive and a negative word earns +2 |
| Heuristic.QualityBonus | src/service/api_gemini.py:160-172 | the quality bonus lies between −1 and +2 per entry, and is never negative without negative-only strings |
| Heuristic.QualityBonusOne | src/service/api_gemini.py:165-172 | the bonus of one entry is the +1/+2/−1/0 of its value, so with `QualityBonusAppend` the bonus is the sum of `QualityOf` over the flattened values |
| Heuristic.QualityBonusAppend | src/service/api_gemini.py:165-172 | the quality bonus of two runs of entries is the sum of their bonuses |
| Heuristic.Clamp | src/service/api_gemini.py:175 | the result lies in [60, 95], is the input when the input is in range, and is the nearer bound otherwise |
| Heuristic.ClampMonotone | src/service/api_gemini.py:175 | clamping to [60, 95] preserves the order of its inputs |
| Heuristic.FlatScore | src/service/api_gemini.py:144-175 | the score lies in [60, 95], and is at least the base 70 when no value is a negative-only string; its exact value is given by `FlatScoreParts` |
| Heuristic.FlatScoreParts | src/service/api_gemini.py:144-175 | the score is exactly 70 plus the coverage, completeness and quality bonuses, clamped to [60, 95]; each bonus is pinned by its own lemmas (`CoverageBonusPerArea`, `CompletenessBonus`, `QualityBonusOne` with `QualityBonusAppend`) |
| Heuristic.SimpleScore | src/service/api_gemini.py:144-175 | the fallback score always lies in [60, 95]; its exact value is given by `SimpleScoreParts` |
| Heuristic.SimpleScoreParts | src/service/api_gemini.py:144-186 | the fallback score is exactly 70 plus the three bonuses of the flattened answers, clamped to [60, 95] (so `{"safety": "poor"}` gets 70 + 3 + 2 − 1) |
| Heuristic.EmptyScoresBase | src/service/api_gemini.py:146-158 | an empty questionnaire scores exactly 70 |
| Heuristic.RichQuestionnaireScoresMax | src/service/api_gemini.py:146-175 | covering all six areas with at least ten entries and no negative-only string gives exactly 95 |
| Heuristic.PositiveEntryNeverLowersFlatScore | src/service/api_gemini.py:158-175 | one more entry holding a positive number never lowers the score |
| Heuristic.PositiveAnswerNeverLowersScore | src/service/api_gemini.py:144-175 | answering one more question with a positive number, under a key that is new both among the answers and among the flattened keys, never lowers the fallback score |
| Heuristic.BandOf | src/service/api_gemini.py:193-200 | a score is Excellent exactly from 85, Good exactly in [75, 85), Satisfactory exactly in [65, 75) and needs improvement exactly below 65 |
| Heuristic.BandMonotone | src/service/api_gemini.py:193-200 | the performance band never gets worse as the score rises, and two scores are in different bands exactly when 65, 75 or 85 lies between them (`BandOf` states each band's range) |
| Heuristic.FileNote | src/service/api_gemini.py:191 | the mention is empty exactly when no non-empty name is given; otherwise it is ` and supporting file '<name>'` |
| Heuristic.FileNoteNamesTheFile | src/service/api_gemini.py:191 | the name can be read back from its mention, so two different names never give the same mention |
| Heuristic.BasicAnalysis | src/service/api_gemini.py:188-217 | the narrative starts with the count of flattened entries, contains the phrase of the score's band, mentions a given file, and ends with the fallback disclosure |
| Heuristic.FileMentionIsTheOnlyDifference | src/service/api_gemini.py:191-203 | an empty file name gives the same narrative as no name at all; with a non-empty name, the narrative is the one without a name with exactly the file mention spliced in after the data-point count |
| Heuristic.SpecificAdviceOrdered | src/service/api_gemini.py:224-238 | the four specific recommendations have strictly increasing priority: safety, environment, operations, workforce |
| Heuristic.Triggered | src/service/api_gemini.py:224-238 | exactly the candidates whose trigger fires are kept |
| Heuristic.TriggeredOrdered | src/service/api_gemini.py:224-238 | keeping the fired candidates preserves their priority order |
| Heuristic.ConsOrdered | src/service/api_gemini.py:224-238 | a recommendation of lower priority than all of an ordered list may be put in front of it |
| Heuristic.SpecificFacts | src/service/api_gemini.py:224-247 | the fired specific recommendations number at most four, keep the priority order, repeat nothing, are all specific and none a default, and are empty exactly when none fires |
| Heuristic.Choose | src/service/api_gemini.py:240-248 | the list has 1 to 4 items; each specific recommendation is present exactly when it fires; the defaults come exactly when none fires, and otherwise the list holds only specific items; specific items stay in order; nothing repeats |
| Heuristic.DefaultAdviceFacts | src/service/api_gemini.py:241-246 | the defaults are three distinct items, none of them a specific recommendation |
| Heuristic.Recommendations | src/service/api_gemini.py:219-248 | from the flattened keys: 1 to 4 items; each specific one is present exactly when a key mentions its trigger words; the three defaults come exactly when no key does, and otherwise no default is mixed in; order is safety, environment, operations, workforce; nothing repeats |
| Heuristic.RecommendationsIgnoreValues | src/service/api_gemini.py:221-238 | replacing an answer's non-object value by another never changes the recommendations |
| Heuristic.FallbackAnalysis | src/service/api_gemini.py:127-142 | the fallback record's score is the heuristic score, its analysis is the narrative written for that score and file name, and its recommendations are the texts of the keyword-triggered recommendations |
| Extractor.InOrderIff | src/service/api_gemini.py:270 | taking each marker's leftmost occurrence in turn succeeds exactly when the markers occur in order |
| Extractor.LeftmostSuffices | src/service/api_gemini.py:270 | when the markers occur in order, the remaining markers still occur in order after the leftmost occurrence of the first one |
| Extractor.HasInOrderOccurs | src/service/api_gemini.py:270 | every marker of an in-order occurrence occurs in the text |
| Extractor.NextBrace | src/service/api_gemini.py:270 | the result is the first `{` or `}` at or after the start, or none when there is none |
| Extractor.MatchAt | src/service/api_gemini.py:270 | the pattern matches at a position exactly when a brace-free `{…}` segment starting there holds the three markers in order |
| Extractor.FirstMatch | src/service/api_gemini.py:270-274 | the result is a match with no match starting further left, and `None` exactly when nothing matches |
| Extractor.Prefix | src/service/api_gemini.py:278 | `text[:n]` is the first `n` characters, or the whole text when shorter |
| Extractor.Truncated | src/service/api_gemini.py:278 | a text of at most 500 characters is kept whole; a longer one becomes its first 500 characters followed by `..` |
| Extractor.Salvaged | src/service/api_gemini.py:284-288 | the salvage record has score 70 and an analysis of the fixed prefix and the first 300 characters |
| Extractor.Unstructured | src/service/api_gemini.py:277-281 | the unstructured record has score 75 and the truncated text as its analysis |
| Extractor.ParseAnalysisResult | src/service/api_gemini.py:261-288 | text that starts with `{` after stripping is returned as parsed, or salvaged when it does not parse; other text uses the leftmost match, parsed or salvaged, and gets the unstructured record when nothing matches |
| Extractor.EveryMarkerRequired | src/service/api_gemini.py:270-281 | text that is not bare JSON and lacks any one of the three markers always gets the unstructured record |
| Extractor.MatchHasMarker | src/service/api_gemini.py:270 | every match holds each of the three markers |
| Extractor.InOrderWithinSlice | src/service/api_gemini.py:270 | a marker of an in-order occurrence inside a segment occurs in the whole text |
| Analyzer.ProcessSupportingFile | src/service/api_gemini.py:250-256 | the summary is `File: <name>` then, for a `.txt`/`.csv`/`.json` name (any case), `Konten:` and the decoded content, otherwise `Ukuran: <byte count> bytes` and the fixed note |
| Analyzer.OpaqueFileSummaryIsSizeOnly | src/service/api_gemini.py:255-256 | two contents of a non-text file give the same summary exactly when they have the same length |
| Analyzer.ExtensionCaseInsensitive | src/service/api_gemini.py:252 | the text-file test gives the same answer for a name and its lower-cased form |
| Analyzer.Prompt | src/service/api_gemini.py:55-60 | when both a non-empty content and a non-empty name are given, the prompt is the questionnaire prompt, the `SUPPORTING FILE INFORMATION` header and the file summary; otherwise it is the questionnaire prompt alone |
| Analyzer.AnalyzeMiningEvaluation | src/service/api_gemini.py:39-82 | unparsable answers give `ValueError` exactly; a reply goes through the extractor; a failed call gives the fallback record for object answers and the wrapped error exactly for non-object answers |
| Analyzer.ModelFailureYieldsHeuristic | src/service/api_gemini.py:62-77 | when the model fails on object answers, the result carries exactly the heuristic score in [60, 95] and an analysis ending with the fallback disclosure |
| Analyzer.FileIgnoredUnlessBothGiven | src/service/api_gemini.py:58-60 | without both a non-empty content and a non-empty name, the prompt is the one without a file, and so is the result whenever the model replies |
| Analyzer.NameReachesFallbackNarrative | src/service/api_gemini.py:73-77 | when the model fails, a non-empty file name is mentioned in the fallback analysis whatever the content, even a missing or empty one |
| Api.ReadItem | src/main.py:32-37 | a negative id gives 400, and exactly then; otherwise the item has that id and name `item-` followed by digits that read back as the id |
| Api.ToResponseModel | src/main.py:68-72 | the response model is built exactly when the record is an object with a string analysis and an integral score in [1, 100]; it keeps that score and takes the given instant |
| Api.IntegralScoreAccepted | src/main.py:21-24 | a record with a string analysis and an integral score in [1, 100] passes validation with that analysis and score |
| Api.FileName | src/main.py:55-59 | the analyzer gets the client's file name whenever a file was uploaded, and no name otherwise |
| Api.UploadPassedOnWhole | src/main.py:55-59 | the content and name handed to the analyzer determine the upload: nothing is dropped or invented |
| Api.AnalyzeQuestionnaire | src/main.py:39-78 | the response is a success exactly when the analysis succeeds and its record validates, and then it is the validated model; every other outcome, including a record with a missing analysis or a score outside [1, 100], is a 500 |
| Api.FallbackResponseAccepted | src/main.py:68-78 | when the model fails on object answers, the endpoint answers successfully with the heuristic score in [60, 95] |
| Api.CreateReview | src/main.py:90-103 | the new review gets the current next id and the payload's author, text and rating; it is appended after the unchanged earlier reviews; the next id goes up by one; the store invariant is kept |
| Api.ListReviews | src/main.py:85-87 | in a well-formed store the listed ids are strictly increasing and below the next id, and every rating is in 1..5 |
| Api.PostReview | src/main.py:16-19 | an out-of-range rating gives 422 and leaves the store unchanged, and exactly then; otherwise the created review is appended |
| Api.PostThenList | tests/test_reviews.py:5-18 | after a post, the reply carries the payload, and the listing is the earlier listing plus the new review; in a well-formed store, only the new review has its id |
| Api.Replay | src/main.py:90-103 | creating reviews for a sequence of payloads adds one review per payload |
| Api.ReplayGeneral | src/main.py:93-102 | replaying payloads keeps the earlier reviews, numbers the new ones from the next id on with their payloads, and keeps the store invariant |
| Api.ReplayFromStart | src/main.py:80-103 | from a fresh process, the i-th review created has id i + 1 and the i-th payload, the next id is one past the count, and the store is well formed |

## Left out

- The generative model, the Gemini SDK and the network (`genai.configure`, `generate_content`, `ask`, the API key, the module-level `analyzer`): the call is the parameter `ask`. The text of `_generate_fallback_response` only matters to `ask`, so it is left out too.
- `json.loads`, `json.dumps`, the prompt template of `_create_analysis_prompt`, `str()` of non-string values and `bytes.decode('utf-8', errors='ignore')`: these are library behaviour, passed in as the functions of `Runtime`.
- Text.Lower: lower-cases ASCII only. Python's `str.lower` also maps non-ASCII capitals.
- Api.ToResponseModel: accepts only a JSON number with no fractional part as the score. pydantic's lax mode would also take `true` or a numeric string such as `"80"`.
- The `except Exception` branch of `_process_supporting_file`: nothing in its `try` block can raise on bytes and a string, so the branch cannot be reached.
- The `print` debug output, `async`/`await`, FastAPI routing and status-code plumbing, and the messages carried by the raised errors: errors are modelled by kind only.
- `datetime.utcnow()`: the instant is passed in as an uninterpreted value.
- The `/health` endpoint, the interactive CLI loops in `src/service/api_gemini.py` and `src/api_gemini.py`, `src/api.py`, `src/api_fastapi.py` and the top-level `main.py`: these are I/O or framework wiring with no decision logic. The `read_item` of `src/api_fastapi.py` duplicates the one modelled.
- `NaN`, `Infinity` and `-Infinity`, which `json.loads` accepts, and the `inf` it returns for an overflowing literal such as `1e400`, have no `real` value, so a questionnaire holding them is outside the model.
- Api.CreateReview: requests are modelled one at a time. `create_review` is a plain `def`, which FastAPI runs in a worker thread pool, so two concurrent posts can both read `_next_id` before either increments it: they then get the same id and one increment is lost. The unique, increasing ids stated by `Api.ListReviews`, `Api.PostThenList` and `Api.ReplayFromStart` hold for serialised requests only.
- Json.Json: an object is a list of fields and could repeat a key, which `json.loads` never returns (it keeps the last value of a repeated key). On such an object the model's flattening would keep every occurrence, so the lemmas that add an answer (`Flattening.AppendFreshLeaf`, `Heuristic.PositiveAnswerNeverLowersScore`) ask for a key that is new among the answers.

=== FILE: analyzer.dfy ===
/**
  `GeminiAnalyzer.analyze_mining_evaluation` and the supporting-file summary it
  appends to the prompt.

  The library calls the analyzer makes are not part of this model; they are
  supplied as a `Runtime` of total functions: `json.loads`, `str()` of a
  non-string value, the prompt template (`_create_analysis_prompt`, which
  embeds `json.dumps(answers)` in fixed text) and lenient UTF-8 decoding. The
  generative model is a function from prompt to reply that either answers
  with text or fails.
 */
module Analyzer {
  import opened Wrappers
  import opened Text
  import opened Json
  import opened Heuristic
  import opened Extractor

  newtype byte = x: int | 0 <= x < 256

  /** The library functions the analyzer calls, as total functions. */
  datatype Runtime = Runtime(
    loads: string -> Option<Json>,
    show: Json -> string,
    prompt: Json -> string,
    decode: seq<byte> -> string)

  /** What the generative model does with a prompt: answer with text, or raise. */
  datatype Reply = Replied(text: string) | Failed

  /**
    The errors `analyze_mining_evaluation` raises: `ValueError` for answers
    that are not JSON, and the generic wrapped `Exception` for any other fault.
   */
  datatype Error = InvalidJson | AnalysisFailed

  /** Extensions, compared after lower-casing, whose content is embedded as text. */
  const TextExtensions: seq<string> := [".txt", ".csv", ".json"]

  /** The file is read as text: its lower-cased name ends with `.txt`, `.csv` or `.json`. */
  predicate IsTextFile(name: string) {
    EndsWithAny(Lower(name), TextExtensions)
  }

  const OpaqueFileNote: string := " bytes\nTipe: File pendukung (konten tidak dapat dibaca langsung)"

  /**
    `_process_supporting_file`: a text file is reported with its decoded
    content, any other file with its name and size only.
   */
  function ProcessSupportingFile(decode: seq<byte> -> string, content: seq<byte>, name: string): (r: string)
    ensures StartsWith(r, "File: " + name + "\n")
    ensures IsTextFile(name) ==> EndsWith(r, decode(content))
    ensures !IsTextFile(name) ==> EndsWith(r, "Ukuran: " + Decimal(|content|) + OpaqueFileNote)
    ensures IsTextFile(name) ==> r == "File: " + name + "\n" + "Konten:\n" + decode(content)
    ensures !IsTextFile(name) ==> r == "File: " + name + "\n" + "Ukuran: " + Decimal(|content|) + OpaqueFileNote
  {
    var head := "File: " + name + "\n";
    var body := if IsTextFile(name) then "Konten:\n" + decode(content)
                else "Ukuran: " + Decimal(|content|) + OpaqueFileNote;
    assert (head + body)[..|head|] == head;
    assert IsTextFile(name) ==> (head + body)[|head + body| - |decode(content)|..] == decode(content);
    assert !IsTextFile(name) ==> (head + body)[|head + body| - |body|..] == body;
    head + body
  }

  /**
    The summary of a non-text file depends on the content's length only: two
    contents give the same summary exactly when they have the same length.
   */
  lemma OpaqueFileSummaryIsSizeOnly(decode: seq<byte> -> string, c1: seq<byte>, c2: seq<byte>, name: string)
    requires !IsTextFile(name)
    ensures ProcessSupportingFile(decode, c1, name) == ProcessSupportingFile(decode, c2, name) <==> |c1| == |c2|
  {
    var head := ("File: " + name + "\n") + "Ukuran: ";
    var s1, s2 := ProcessSupportingFile(decode, c1, name), ProcessSupportingFile(decode, c2, name);
    OpaqueSummaryShape(decode, c1, name);
    OpaqueSummaryShape(decode, c2, name);
    assert s1 == head + Decimal(|c1|) + OpaqueFileNote;
    assert s2 == head + Decimal(|c2|) + OpaqueFileNote;
    if s1 == s2 {
      assert |Decimal(|c1|)| == |Decimal(|c2|)|;
      assert Decimal(|c1|) == s1[|head|..|head| + |Decimal(|c1|)|];
      assert Decimal(|c2|) == s2[|head|..|head| + |Decimal(|c2|)|];
      DecimalInjective(|c1|, |c2|);
    }
  }

  /** The summary of a non-text file, laid out. */
  lemma OpaqueSummaryShape(decode: seq<byte> -> string, c: seq<byte>, name: string)
    requires !IsTextFile(name)
    ensures ProcessSupportingFile(decode, c, name) == ("File: " + name + "\n") + ("Ukuran: " + Decimal(|c|) + OpaqueFileNote)
  {
  }

  /** Case does not matter for the extension test. */
  lemma ExtensionCaseInsensitive(name: string)
    ensures IsTextFile(Lower(name)) == IsTextFile(name)
  {
    LowerIdempotent(name);
  }

  /** Python's `file_content and file_name`: both present and non-empty. */
  predicate FileGiven(content: Option<seq<byte>>, name: Option<string>) {
    content.Some? && |content.value| > 0 && Given(name)
  }

  const FileSection: string := "\n\nSUPPORTING FILE INFORMATION:\n"

  /**
    The prompt sent to the model: the questionnaire prompt, followed by the
    supporting-file section only when both a non-empty content and a
    non-empty name are given.
   */
  function Prompt(rt: Runtime, answers: Json, content: Option<seq<byte>>, name: Option<string>): (r: string)
    ensures StartsWith(r, rt.prompt(answers))
    ensures !FileGiven(content, name) ==> r == rt.prompt(answers)
    ensures FileGiven(content, name) ==>
      EndsWith(r, ProcessSupportingFile(rt.decode, content.value, name.value)) &&
      |r| > |rt.prompt(answers)|
    ensures FileGiven(content, name) ==>
      r == rt.prompt(answers) + FileSection + ProcessSupportingFile(rt.decode, content.value, name.value)
  {
    var base := rt.prompt(answers);
    if FileGiven(content, name) then
      var info := ProcessSupportingFile(rt.decode, content.value, name.value);
      ConcatParts(base, FileSection, info);
      base + FileSection + info
    else
      base
  }

  /**
    `analyze_mining_evaluation(answers, file_content, file_name)`, with `ask`
    standing for the call to the generative model. Answers that do not parse
    raise `ValueError`; otherwise the model's reply is salvaged by
    `ParseAnalysisResult`, and when the call fails the fallback record is
    built instead, which raises when the answers are not a JSON object.
   */
  function AnalyzeMiningEvaluation(rt: Runtime, ask: string -> Reply, answers: string,
                                   content: Option<seq<byte>>, name: Option<string>): (r: Result<Json, Error>)
    ensures r == Failure(InvalidJson) <==> rt.loads(answers).None?
    ensures r.Success? ==> rt.loads(answers).Some?
    ensures r.Success? && ask(Prompt(rt, rt.loads(answers).value, content, name)).Failed? ==>
      rt.loads(answers).value.JObj? && r.value == FallbackAnalysis(rt.loads(answers).value.fields, name, rt.show)
    ensures r.Success? && ask(Prompt(rt, rt.loads(answers).value, content, name)).Replied? ==>
      r.value == ParseAnalysisResult(rt.loads, ask(Prompt(rt, rt.loads(answers).value, content, name)).text)
    ensures r == Failure(AnalysisFailed) <==>
      rt.loads(answers).Some? && !rt.loads(answers).value.JObj? &&
      ask(Prompt(rt, rt.loads(answers).value, content, name)).Failed?
  {
    match rt.loads(answers)
    case None => Failure(InvalidJson)
    case Some(parsed) =>
      match ask(Prompt(rt, parsed, content, name))
      case Replied(text) => Success(ParseAnalysisResult(rt.loads, text))
      case Failed =>
        if parsed.JObj? then Success(FallbackAnalysis(parsed.fields, name, rt.show))
        else Failure(AnalysisFailed)
  }

  /**
    When the model cannot be reached and the answers are a JSON object, the
    result carries exactly the heuristic score, which lies in [60, 95], and a
    narrative that discloses the fallback.
   */
  lemma ModelFailureYieldsHeuristic(rt: Runtime, ask: string -> Reply, answers: string,
                                    content: Option<seq<byte>>, name: Option<string>)
    requires rt.loads(answers).Some? && rt.loads(answers).value.JObj?
    requires ask(Prompt(rt, rt.loads(answers).value, content, name)).Failed?
    ensures var r := AnalyzeMiningEvaluation(rt, ask, answers, content, name);
            var fields := rt.loads(answers).value.fields;
            && r.Success? && r.value.JObj?
            && Lookup(r.value.fields, "score") == Some(JNum(SimpleScore(fields, rt.show) as real))
            && 60 <= SimpleScore(fields, rt.show) <= 95
            && Lookup(r.value.fields, "analysis").Some?
            && Lookup(r.value.fields, "analysis").value.JStr?
            && EndsWith(Lookup(r.value.fields, "analysis").value.s, FallbackNote)
  {
  }

  /**
    The model never sees the supporting file unless both its content and its
    name are non-empty: otherwise the prompt is the one without a file, and so
    is the result whenever the model replies.
   */
  lemma FileIgnoredUnlessBothGiven(rt: Runtime, ask: string -> Reply, answers: string,
                                   content: Option<seq<byte>>, name: Option<string>)
    requires !FileGiven(content, name)
    requires rt.loads(answers).Some?
    ensures Prompt(rt, rt.loads(answers).value, content, name) == Prompt(rt, rt.loads(answers).value, None, None)
    ensures ask(Prompt(rt, rt.loads(answers).value, content, name)).Replied? ==>
      AnalyzeMiningEvaluation(rt, ask, answers, content, name) == AnalyzeMiningEvaluation(rt, ask, answers, None, None)
  {
  }

  /**
    On the fallback path the file name reaches the narrative on its own: with
    the model unreachable, a non-empty name is mentioned in the analysis even
    when the content is missing or empty, unlike in the prompt.
   */
  lemma NameReachesFallbackNarrative(rt: Runtime, ask: string -> Reply, answers: string,
                                     content: Option<seq<byte>>, name: Option<string>)
    requires rt.loads(answers).Some? && rt.loads(answers).value.JObj?
    requires ask(Prompt(rt, rt.loads(answers).value, content, name)).Failed?
    requires Given(name)
    ensures var r := AnalyzeMiningEvaluation(rt, ask, answers, content, name);
            && r.Success? && r.value.JObj?
            && Lookup(r.value.fields, "analysis").Some? && Lookup(r.value.fields, "analysis").value.JStr?
            && Contains(Lookup(r.value.fields, "analysis").value.s, FileMentionLead + name.value + "'")
  {
  }
}

=== FILE: api.dfy ===
/**
  The HTTP handlers of the service module: `read_item`, the error mapping of
  `analyze_questionnaire`, and the in-memory review store behind
  `create_review` and `list_reviews`. Routing, request parsing and the clock
  are the framework's; the current time is passed in as an opaque instant.
 */
module Api {
  import opened Wrappers
  import opened Text
  import opened Json
  import opened Heuristic
  import opened Analyzer

  /** An instant read from the clock (`datetime.utcnow()`), left uninterpreted. */
  type Instant = int

  /** A handler's outcome: the response body, or an HTTP error status. */
  datatype Response<+T> = Ok(body: T) | HttpError(status: int)

  /** The body of `read_item`. */
  datatype Item = Item(id: int, name: string)

  /**
    `read_item(item_id)`: a negative id is rejected with 400; any other id
    comes back with the name `item-<id>`, from which the id can be read back.
   */
  function ReadItem(itemId: int): (r: Response<Item>)
    ensures r == HttpError(400) <==> itemId < 0
    ensures r.Ok? ==> r.body.id == itemId && StartsWith(r.body.name, "item-")
    ensures r.Ok? ==> AllDigits(r.body.name[5..]) && DecimalValue(r.body.name[5..]) == itemId
  {
    if itemId < 0 then HttpError(400)
    else
      var name := "item-" + Decimal(itemId);
      assert name[5..] == Decimal(itemId);
      DecimalRoundTrip(itemId);
      Ok(Item(itemId, name))
  }

  /** The response model of the analysis endpoint. */
  datatype QuestionnaireAnalysis = QuestionnaireAnalysis(analysis: string, score: int, evaluationDate: Instant)

  /** A JSON number pydantic accepts for `score: int = Field(ge=1, le=100)`: integral, in [1, 100]. */
  predicate AcceptedScore(v: Json) {
    v.JNum? && v.n.Floor as real == v.n && 1 <= v.n.Floor <= 100
  }

  /** Building the response model from the analysis record; `None` when validation would raise. */
  function ToResponseModel(result: Json, now: Instant): (r: Option<QuestionnaireAnalysis>)
    ensures r.Some? <==>
      result.JObj? &&
      Lookup(result.fields, "analysis").Some? && Lookup(result.fields, "analysis").value.JStr? &&
      Lookup(result.fields, "score").Some? && AcceptedScore(Lookup(result.fields, "score").value)
    ensures r.Some? ==> 1 <= r.value.score <= 100 && r.value.evaluationDate == now
    ensures r.Some? ==> Lookup(result.fields, "score") == Some(JNum(r.value.score as real))
  {
    if !result.JObj? then None
    else
      var a := Lookup(result.fields, "analysis");
      var s := Lookup(result.fields, "score");
      if a.Some? && a.value.JStr? && s.Some? && AcceptedScore(s.value)
      then Some(QuestionnaireAnalysis(a.value.s, s.value.n.Floor, now))
      else None
  }

  /** An uploaded file: its bytes and the file name the client sent, if any. */
  datatype Upload = Upload(content: seq<byte>, filename: Option<string>)

  /** The file content handed to the analyzer: present exactly when a file was uploaded. */
  function Content(upload: Option<Upload>): (r: Option<seq<byte>>)
    ensures r.Some? <==> upload.Some?
    ensures r.Some? ==> r.value == upload.value.content
  {
    if upload.Some? then Some(upload.value.content) else None
  }

  /** The file name handed to the analyzer: the client's name for an uploaded file, else none. */
  function FileName(upload: Option<Upload>): (r: Option<string>)
    ensures upload.Some? ==> r == upload.value.filename
    ensures upload.None? ==> r.None?
  {
    if upload.Some? then upload.value.filename else None
  }

  /**
    Nothing of the upload is lost or invented on the way to the analyzer: the
    content and name passed on determine the upload.
   */
  lemma UploadPassedOnWhole(u: Option<Upload>, v: Option<Upload>)
    requires Content(u) == Content(v) && FileName(u) == FileName(v)
    ensures u == v
  {
    if u.Some? {
      assert u.value.content == v.value.content;
    }
  }

  /**
    `analyze_questionnaire`: run the analysis with the uploaded file, if any,
    and build the response model; any error raised on the way, including a
    record that fails validation, becomes a 500.
   */
  function AnalyzeQuestionnaire(rt: Runtime, ask: string -> Reply, answers: string,
                                upload: Option<Upload>, now: Instant): (r: Response<QuestionnaireAnalysis>)
    ensures r.HttpError? ==> r.status == 500
    ensures AnalyzeMiningEvaluation(rt, ask, answers, Content(upload), FileName(upload)).Failure? ==> r == HttpError(500)
    ensures var result := AnalyzeMiningEvaluation(rt, ask, answers, Content(upload), FileName(upload));
            r.Ok? <==> result.Success? && ToResponseModel(result.value, now).Some?
    ensures r.Ok? ==> 1 <= r.body.score <= 100
    ensures var result := AnalyzeMiningEvaluation(rt, ask, answers, Content(upload), FileName(upload));
            result.Success? && ToResponseModel(result.value, now).Some? ==> r == Ok(ToResponseModel(result.value, now).value)
  {
    match AnalyzeMiningEvaluation(rt, ask, answers, Content(upload), FileName(upload))
    case Failure(_) => HttpError(500)
    case Success(result) =>
      match ToResponseModel(result, now)
      case Some(body) => Ok(body)
      case None => HttpError(500)
  }

  /**
    Whenever the fallback path runs, the response is a success carrying the
    heuristic score: it always lies within the range the response model accepts.
   */
  lemma FallbackResponseAccepted(rt: Runtime, ask: string -> Reply, answers: string,
                                 upload: Option<Upload>, now: Instant)
    requires rt.loads(answers).Some? && rt.loads(answers).value.JObj?
    requires ask(Prompt(rt, rt.loads(answers).value, Content(upload), FileName(upload))).Failed?
    ensures var r := AnalyzeQuestionnaire(rt, ask, answers, upload, now);
            r.Ok? && r.body.score == SimpleScore(rt.loads(answers).value.fields, rt.show) &&
            60 <= r.body.score <= 95
  {
    ModelFailureYieldsHeuristic(rt, ask, answers, Content(upload), FileName(upload));
    var result := AnalyzeMiningEvaluation(rt, ask, answers, Content(upload), FileName(upload));
    IntegralScoreAccepted(result.value, SimpleScore(rt.loads(answers).value.fields, rt.show), now);
  }

  /** A record with a text analysis and an integral score in [1, 100] passes validation unchanged. */
  lemma IntegralScoreAccepted(result: Json, score: int, now: Instant)
    requires result.JObj? && Lookup(result.fields, "analysis").Some? && Lookup(result.fields, "analysis").value.JStr?
    requires Lookup(result.fields, "score") == Some(JNum(score as real)) && 1 <= score <= 100
    ensures ToResponseModel(result, now) ==
            Some(QuestionnaireAnalysis(Lookup(result.fields, "analysis").value.s, score, now))
  {
    assert (score as real).Floor == score;
  }

  /** The payload of `POST /reviews`. */
  datatype ReviewCreate = ReviewCreate(author: string, text: string, rating: Option<int>)

  /** A stored review. */
  datatype Review = Review(id: int, author: string, text: string, rating: Option<int>, createdAt: Instant)

  /** The module-level store: the reviews in creation order and the next id to hand out. */
  datatype Store = Store(reviews: seq<Review>, nextId: int)

  /** The store when the process starts. */
  const InitialStore: Store := Store([], 1)

  /** `rating: Optional[int] = Field(None, ge=1, le=5)`. */
  predicate ValidRating(rating: Option<int>) {
    rating.None? || 1 <= rating.value <= 5
  }

  /**
    The store is well formed: ids are positive, strictly increasing in
    creation order and below `nextId`, and every rating is valid.
   */
  predicate StoreInvariant(s: Store) {
    && s.nextId >= 1
    && (forall i :: 0 <= i < |s.reviews| ==> 1 <= s.reviews[i].id < s.nextId)
    && (forall i, j :: 0 <= i < j < |s.reviews| ==> s.reviews[i].id < s.reviews[j].id)
    && (forall i :: 0 <= i < |s.reviews| ==> ValidRating(s.reviews[i].rating))
  }

  /**
    `create_review`: the new review takes the current `nextId` and the
    payload's author, text and rating, is appended after every earlier review,
    which stay as they were, and `nextId` moves up by one. The invariant is kept.
   */
  function CreateReview(s: Store, payload: ReviewCreate, now: Instant): (r: (Store, Review))
    requires ValidRating(payload.rating)
    ensures r.1.id == s.nextId && r.0.nextId == s.nextId + 1
    ensures r.1.author == payload.author && r.1.text == payload.text && r.1.rating == payload.rating
    ensures r.0.reviews == s.reviews + [r.1]
    ensures StoreInvariant(s) ==> StoreInvariant(r.0)
  {
    var review := Review(s.nextId, payload.author, payload.text, payload.rating, now);
    (Store(s.reviews + [review], s.nextId + 1), review)
  }

  /**
    `list_reviews`: every review created so far, in creation order, so that
    in a well-formed store the listed ids are distinct and increasing.
   */
  function ListReviews(s: Store): (r: seq<Review>)
    ensures StoreInvariant(s) ==> forall i, j :: 0 <= i < j < |r| ==> r[i].id < r[j].id
    ensures StoreInvariant(s) ==> forall i :: 0 <= i < |r| ==> 1 <= r[i].id < s.nextId && ValidRating(r[i].rating)
  {
    s.reviews
  }

  /**
    `POST /reviews` as a whole: a payload whose rating is out of range is
    refused with 422 before the handler runs and leaves the store alone;
    any other is created and answered with the new review.
   */
  function PostReview(s: Store, payload: ReviewCreate, now: Instant): (r: (Store, Response<Review>))
    ensures !ValidRating(payload.rating) <==> r.1 == HttpError(422)
    ensures !ValidRating(payload.rating) ==> r.0 == s
    ensures ValidRating(payload.rating) ==> r.1.Ok? && r.0.reviews == s.reviews + [r.1.body]
  {
    if !ValidRating(payload.rating) then (s, HttpError(422))
    else
      var (s', review) := CreateReview(s, payload, now);
      (s', Ok(review))
  }

  /**
    Posting a review and then listing shows it, carrying the payload, after
    the earlier ones; in a well-formed store no earlier review has its id, so
    the id picks out exactly the new review.
   */
  lemma PostThenList(s: Store, payload: ReviewCreate, now: Instant)
    requires ValidRating(payload.rating)
    ensures var (s', r) := PostReview(s, payload, now);
            r.Ok? && r.body.author == payload.author && r.body.text == payload.text &&
            r.body.rating == payload.rating &&
            (exists i :: 0 <= i < |ListReviews(s')| && ListReviews(s')[i].id == r.body.id) &&
            ListReviews(s') == ListReviews(s) + [r.body]
    ensures var (s', r) := PostReview(s, payload, now);
            StoreInvariant(s) ==> forall i :: 0 <= i < |ListReviews(s')| ==>
              (ListReviews(s')[i].id == r.body.id <==> i == |ListReviews(s)|)
  {
    var (s', r) := PostReview(s, payload, now);
    assert ListReviews(s')[|s.reviews|] == r.body;
  }

  /** The store after creating reviews for `payloads` in order, all at instant `now`. */
  function Replay(s: Store, payloads: seq<ReviewCreate>, now: Instant): (r: Store)
    requires forall i :: 0 <= i < |payloads| ==> ValidRating(payloads[i].rating)
    ensures |r.reviews| == |s.reviews| + |payloads|
    decreases |payloads|
  {
    if |payloads| == 0 then s
    else Replay(CreateReview(s, payloads[0], now).0, payloads[1..], now)
  }

  /**
    From a fresh process, the i-th review created carries id i + 1 and the
    i-th payload's author, text and rating; afterwards `nextId` is one past the count.
   */
  lemma {:induction false} ReplayFromStart(payloads: seq<ReviewCreate>, now: Instant)
    requires forall i :: 0 <= i < |payloads| ==> ValidRating(payloads[i].rating)
    ensures var r := Replay(InitialStore, payloads, now);
            && r.nextId == |payloads| + 1
            && StoreInvariant(r)
            && forall i :: 0 <= i < |payloads| ==> NewReview(r.reviews[i], i + 1, payloads[i])
  {
    ReplayGeneral(InitialStore, payloads, now);
  }

  /** `review` is the one created under `id` from `payload`. */
  predicate NewReview(review: Review, id: int, payload: ReviewCreate) {
    review.id == id && review.author == payload.author && review.text == payload.text && review.rating == payload.rating
  }

  /** Replaying from any store keeps the earlier reviews and numbers the new ones from `nextId` on. */
  lemma {:induction false} ReplayGeneral(s: Store, payloads: seq<ReviewCreate>, now: Instant)
    requires forall i :: 0 <= i < |payloads| ==> ValidRating(payloads[i].rating)
    ensures Replay(s, payloads, now).nextId == s.nextId + |payloads|
    ensures Replay(s, payloads, now).reviews[..|s.reviews|] == s.reviews
    ensures StoreInvariant(s) ==> StoreInvariant(Replay(s, payloads, now))
    ensures forall i :: 0 <= i < |payloads| ==> NewReview(Replay(s, payloads, now).reviews[|s.reviews| + i], s.nextId + i, payloads[i])
    decreases |payloads|
  {
    if |payloads| > 0 {
      var (s1, review) := CreateReview(s, payloads[0], now);
      ReplayGeneral(s1, payloads[1..], now);
      var r := Replay(s, payloads, now);
      assert r == Replay(s1, payloads[1..], now);
      assert r.reviews[..|s1.reviews|] == s1.reviews;
      assert r.reviews[..|s.reviews|] == s1.reviews[..|s.reviews|];
      forall i | 0 <= i < |payloads|
        ensures NewReview(r.reviews[|s.reviews| + i], s.nextId + i, payloads[i])
      {
        if i == 0 {
          assert r.reviews[|s.reviews|] == s1.reviews[|s.reviews|] == review;
        } else {
          var j := i - 1;
          assert payloads[1..][j] == payloads[i];
          assert |s.reviews| + i == |s1.reviews| + j;
          assert NewReview(r.reviews[|s1.reviews| + j], s1.nextId + j, payloads[1..][j]);
        }
      }
    }
  }
}

=== FILE: extractor.dfy ===
/**
  `_parse_analysis_result`: salvage an analysis record from whatever text the
  generative model returned, without ever raising.

  The regular expression it searches with,
  `\{[^{}]*"analysis"[^{}]*"score"[^{}]*"recommendations"[^{}]*\}`, is modelled
  exactly: since `[^{}]*` cannot cross a brace, a match is a `{ ... }` segment
  with no brace inside that contains the three quoted markers in that order,
  and the first match `re.findall` reports is the leftmost such segment.
 */
module Extractor {
  import opened Wrappers
  import opened Text
  import opened Json

  /** The quoted markers the pattern looks for, in order. */
  const Markers: seq<string> := ["\"analysis\"", "\"score\"", "\"recommendations\""]

  /** The words occur in `s` one after another, without overlapping (the reference definition). */
  ghost predicate HasInOrder(s: string, words: seq<string>)
    decreases |words|
  {
    |words| == 0 ||
    exists p: nat :: OccursAt(s, words[0], p) && HasInOrder(s[p + |words[0]|..], words[1..])
  }

  /** The words occur in `s` one after another, found by taking each leftmost occurrence in turn. */
  function InOrder(s: string, words: seq<string>): bool
    decreases |words|
  {
    |words| == 0 ||
    match FindFrom(s, words[0], 0)
    case None => false
    case Some(p) => InOrder(s[p + |words[0]|..], words[1..])
  }

  /** Words found in order in a suffix are found in order in the whole string. */
  lemma HasInOrderSuffix(s: string, words: seq<string>, k: nat)
    requires k <= |s| && HasInOrder(s[k..], words)
    ensures HasInOrder(s, words)
  {
    if |words| > 0 {
      var n := |words[0]|;
      var p: nat :| OccursAt(s[k..], words[0], p) && HasInOrder(s[k..][p + n..], words[1..]);
      assert s[k..][p..p + n] == s[k + p..k + p + n];
      assert OccursAt(s, words[0], k + p);
      assert s[k..][p + n..] == s[k + p + n..];
    }
  }

  /** Taking leftmost occurrences loses nothing: the search succeeds exactly when the words occur in order. */
  lemma {:induction false} InOrderIff(s: string, words: seq<string>)
    ensures InOrder(s, words) <==> HasInOrder(s, words)
    decreases |words|
  {
    if |words| > 0 {
      var n := |words[0]|;
      match FindFrom(s, words[0], 0)
      case None =>
      case Some(p) =>
        var rest := s[p + n..];
        InOrderIff(rest, words[1..]);
        assert InOrder(s, words) == InOrder(rest, words[1..]);
        if HasInOrder(s, words) {
          LeftmostSuffices(s, words, p);
        }
        if HasInOrder(rest, words[1..]) {
          assert OccursAt(s, words[0], p);
        }
    }
  }

  /** When the words occur in order, they still do after the leftmost occurrence of the first one. */
  lemma LeftmostSuffices(s: string, words: seq<string>, p: nat)
    requires |words| > 0 && HasInOrder(s, words) && FindFrom(s, words[0], 0) == Some(p)
    ensures HasInOrder(s[p + |words[0]|..], words[1..])
  {
    var n := |words[0]|;
    var q: nat :| OccursAt(s, words[0], q) && HasInOrder(s[q + n..], words[1..]);
    assert p <= q;
    assert s[p + n..][q - p..] == s[q + n..];
    HasInOrderSuffix(s[p + n..], words[1..], q - p);
  }

  /** Each word of an in-order occurrence occurs somewhere in `s`. */
  lemma {:induction false} HasInOrderOccurs(s: string, words: seq<string>, k: nat)
    requires HasInOrder(s, words) && k < |words|
    ensures exists p: nat :: OccursAt(s, words[k], p)
    decreases |words|
  {
    var n := |words[0]|;
    var p: nat :| OccursAt(s, words[0], p) && HasInOrder(s[p + n..], words[1..]);
    if k > 0 {
      HasInOrderOccurs(s[p + n..], words[1..], k - 1);
      var q: nat :| OccursAt(s[p + n..], words[1..][k - 1], q);
      assert s[p + n..][q..q + |words[k]|] == s[p + n + q..p + n + q + |words[k]|];
      assert OccursAt(s, words[k], p + n + q);
    }
  }

  predicate IsBrace(c: char) {
    c == '{' || c == '}'
  }

  /** The first brace at or after `from`. */
  function NextBrace(s: string, from: nat): (r: Option<nat>)
    requires from <= |s|
    ensures r.Some? ==> from <= r.value < |s| && IsBrace(s[r.value])
    ensures r.Some? ==> forall k :: from <= k < r.value ==> !IsBrace(s[k])
    ensures r.None? ==> forall k :: from <= k < |s| ==> !IsBrace(s[k])
    decreases |s| - from
  {
    if from == |s| then None
    else if IsBrace(s[from]) then Some(from)
    else NextBrace(s, from + 1)
  }

  /** `s[i..j+1]` is a match of the pattern: braces at both ends, none inside, the markers in order. */
  ghost predicate IsMatch(s: string, i: nat, j: nat) {
    && i < j < |s|
    && s[i] == '{' && s[j] == '}'
    && (forall k :: i < k < j ==> !IsBrace(s[k]))
    && HasInOrder(s[i + 1..j], Markers)
  }

  /** The end of the match starting at `i`, if the pattern matches there. */
  function MatchAt(s: string, i: nat): (r: Option<nat>)
    requires i < |s|
    ensures r.Some? ==> IsMatch(s, i, r.value)
    ensures r.None? ==> forall j: nat :: !IsMatch(s, i, j)
  {
    if s[i] != '{' then None
    else
      match NextBrace(s, i + 1)
      case None => None
      case Some(j) =>
        InOrderIff(s[i + 1..j], Markers);
        if s[j] == '}' && InOrder(s[i + 1..j], Markers) then Some(j) else None
  }

  /** The leftmost match starting at or after `from`, as its start and end indices. */
  function FirstMatch(s: string, from: nat := 0): (r: Option<(nat, nat)>)
    requires from <= |s|
    ensures r.Some? ==> from <= r.value.0 && IsMatch(s, r.value.0, r.value.1)
    ensures r.Some? ==> forall i: nat, j: nat :: from <= i < r.value.0 ==> !IsMatch(s, i, j)
    ensures r.None? ==> forall i: nat, j: nat :: from <= i ==> !IsMatch(s, i, j)
    decreases |s| - from
  {
    if from == |s| then None
    else
      match MatchAt(s, from)
      case Some(j) => Some((from, j))
      case None => FirstMatch(s, from + 1)
  }

  /** The explanation that opens the record salvaged from an unparseable response. */
  const SalvagePrefix: string := "Analisis berhasil dilakukan namun format respons tidak standar. "
  const SalvageAdvice: seq<string> := ["Review hasil analisis", "Validasi dengan expert", "Lakukan assessment ulang"]
  const UnstructuredAdvice: seq<string> := ["Lakukan review lebih lanjut", "Konsultasi dengan ahli", "Update dokumentasi"]

  /** `s[:n]`. */
  function Prefix(s: string, n: nat): (r: string)
    ensures |r| <= n && StartsWith(s, r)
    ensures |s| <= n ==> r == s
    ensures |s| > n ==> |r| == n
  {
    if |s| <= n then s else s[..n]
  }

  /**
    The analysis text of a response with no JSON in it: the text itself when
    it has at most 500 characters, otherwise its first 500 characters and "..".
   */
  function Truncated(text: string): (r: string)
    ensures |r| <= 502
    ensures StartsWith(r, Prefix(text, 500))
    ensures |text| <= 500 ==> r == text
    ensures |text| > 500 ==> |r| == 502 && EndsWith(r, "..")
  {
    if |text| > 500 then Prefix(text, 500) + ".." else text
  }

  /** The record returned when a JSON-looking response fails to parse: score 70. */
  function Salvaged(text: string): (r: Json)
    ensures r.JObj?
    ensures Lookup(r.fields, "score") == Some(JNum(70 as real))
    ensures Lookup(r.fields, "analysis") == Some(JStr(SalvagePrefix + Prefix(text, 300)))
  {
    AnalysisRecord(SalvagePrefix + Prefix(text, 300), 70, SalvageAdvice)
  }

  /** The record returned when the response holds no JSON at all: score 75. */
  function Unstructured(text: string): (r: Json)
    ensures r.JObj?
    ensures Lookup(r.fields, "score") == Some(JNum(75 as real))
    ensures Lookup(r.fields, "analysis") == Some(JStr(Truncated(text)))
  {
    AnalysisRecord(Truncated(text), 75, UnstructuredAdvice)
  }

  /** The stripped response starts with an opening brace. */
  predicate LooksLikeJson(text: string) {
    StartsWith(Strip(text), "{")
  }

  /**
    `_parse_analysis_result(text)`, with `parse` standing for `json.loads`.
    A response that starts (after white space) with `{` and parses is returned
    as parsed; one that starts with `{` but does not parse is salvaged with
    score 70. Otherwise the leftmost match of the pattern is parsed, again
    falling back to the score-70 record; with no match at all the text itself
    becomes the analysis with score 75.
   */
  function ParseAnalysisResult(parse: string -> Option<Json>, text: string): (r: Json)
    ensures LooksLikeJson(text) && parse(text).Some? ==> r == parse(text).value
    ensures LooksLikeJson(text) && parse(text).None? ==> r == Salvaged(text)
    ensures !LooksLikeJson(text) && (forall i: nat, j: nat :: !IsMatch(text, i, j)) ==> r == Unstructured(text)
    ensures !LooksLikeJson(text) && (exists i: nat, j: nat :: IsMatch(text, i, j)) ==>
      exists i: nat, j: nat :: Leftmost(text, i, j) && r == ParseOrSalvage(parse, text, text[i..j + 1])
  {
    if LooksLikeJson(text) then ParseOrSalvage(parse, text, text)
    else
      var m := FirstMatch(text);
      if m.Some? then
        assert Leftmost(text, m.value.0, m.value.1);
        ParseOrSalvage(parse, text, text[m.value.0..m.value.1 + 1])
      else Unstructured(text)
  }

  /** The match starting at `i` and ending at `j` is the leftmost one. */
  ghost predicate Leftmost(s: string, i: nat, j: nat) {
    IsMatch(s, i, j) && forall i': nat, j': nat :: i' < i ==> !IsMatch(s, i', j')
  }

  /** `json.loads(piece)`, or the score-70 record for `text` when that raises. */
  function ParseOrSalvage(parse: string -> Option<Json>, text: string, piece: string): (r: Json)
    ensures parse(piece).Some? ==> r == parse(piece).value
    ensures parse(piece).None? ==> r == Salvaged(text)
  {
    match parse(piece)
    case Some(v) => v
    case None => Salvaged(text)
  }

  /**
    All three markers are required: a reply that is not bare JSON and lacks
    any one of them gets the unstructured record, whatever else it holds
    (a reply with `"analysis"` and `"score"` but no `"recommendations"`
    is not salvaged from its braces).
   */
  lemma EveryMarkerRequired(parse: string -> Option<Json>, text: string, k: nat)
    requires !LooksLikeJson(text) && k < |Markers| && !Contains(text, Markers[k])
    ensures ParseAnalysisResult(parse, text) == Unstructured(text)
  {
    forall i: nat, j: nat ensures !IsMatch(text, i, j) {
      MatchHasMarker(text, i, j, k);
    }
  }

  /** A match holds every marker, so the text around it does too. */
  lemma MatchHasMarker(text: string, i: nat, j: nat, k: nat)
    requires k < |Markers|
    ensures IsMatch(text, i, j) ==> Contains(text, Markers[k])
  {
    if IsMatch(text, i, j) {
      InOrderWithinSlice(text, i + 1, j, Markers, k);
      ContainsIff(text, Markers[k]);
    }
  }

  /** A word found in order inside a slice occurs in the whole string. */
  lemma InOrderWithinSlice(s: string, lo: nat, hi: nat, words: seq<string>, k: nat)
    requires lo <= hi <= |s| && HasInOrder(s[lo..hi], words) && k < |words|
    ensures exists p: nat :: OccursAt(s, words[k], p)
  {
    HasInOrderOccurs(s[lo..hi], words, k);
    var p: nat :| OccursAt(s[lo..hi], words[k], p);
    OccursInSlice(s, lo, hi, words[k], p);
  }
}

=== FILE: flattening.dfy ===
/**
  `_flatten_dict`: a nested JSON object becomes a single-level dictionary whose
  keys join the path of object keys with `_`, and whose values are the leaves
  (everything that is not an object, arrays included).
 */
module Flattening {
  import opened Wrappers
  import opened Text
  import opened Json

  /** The key under which a child is filed: the child's own key at the top, `parent_child` below. */
  function ChildKey(parent: string, k: string): (r: string)
    ensures parent == "" ==> r == k
    ensures parent != "" ==> StartsWith(r, parent + "_") && r[|parent| + 1..] == k
  {
    if parent != "" then parent + "_" + k else k
  }

  /** Number of non-object leaves reachable from `fields[i..]`. */
  function LeafCount(fields: seq<(string, Json)>, i: nat := 0): nat
    requires i <= |fields|
    decreases JObj(fields), |fields| - i
  {
    if i == |fields| then 0
    else
      var v := fields[i].1;
      (if v.JObj? then LeafCount(v.fields) else 1) + LeafCount(fields, i + 1)
  }

  /** What one field adds to the list of items before deduplication. */
  function Part(field: (string, Json), parent: string): seq<(string, Json)>
    decreases field.1, 3
  {
    var key := ChildKey(parent, field.0);
    if field.1.JObj? then FlattenDict(field.1.fields, key) else [(key, field.1)]
  }

  /** The list `items` of the source after the loop has visited `fields[i..]`. */
  function Items(fields: seq<(string, Json)>, parent: string, i: nat := 0): (r: seq<(string, Json)>)
    requires i <= |fields|
    ensures forall e :: e in r ==> !e.1.JObj?
    ensures |r| <= LeafCount(fields, i)
    ensures parent != "" ==> forall e :: e in r ==> StartsWith(e.0, parent + "_")
    decreases JObj(fields), 1, |fields| - i
  {
    if i == |fields| then []
    else
      var p := Part(fields[i], parent);
      var rest := Items(fields, parent, i + 1);
      assert parent != "" ==> forall e :: e in p ==> StartsWith(e.0, parent + "_") by {
        if parent != "" {
          var key := ChildKey(parent, fields[i].0);
          forall e | e in p
            ensures StartsWith(e.0, parent + "_")
          {
            assert StartsWith(e.0, key + "_") || e.0 == key;
            assert (key + "_")[..|parent| + 1] == key[..|parent| + 1];
          }
        }
      }
      p + rest
  }

  /**
    `_flatten_dict(d, parent)`: no value of the result is an object, no key is
    repeated, there are at most as many entries as leaves (a repeated key keeps
    the last value), and below the top level every key starts with `parent_`.
   */
  function FlattenDict(fields: seq<(string, Json)>, parent: string := ""): (r: seq<(string, Json)>)
    ensures UniqueKeys(r)
    ensures forall e :: e in r ==> !e.1.JObj?
    ensures |r| <= LeafCount(fields)
    ensures parent != "" ==> forall e :: e in r ==> StartsWith(e.0, parent + "_")
    decreases JObj(fields), 2
  {
    DictOf(Items(fields, parent))
  }

  /** Every entry contributed by the field at `i` is in the list built from any earlier position. */
  lemma {:induction false} PartInItems(fields: seq<(string, Json)>, parent: string, i: nat, j: nat)
    requires j <= i < |fields|
    ensures forall e :: e in Part(fields[i], parent) ==> e in Items(fields, parent, j)
    decreases i - j
  {
    if j < i {
      PartInItems(fields, parent, i, j + 1);
    }
  }

  /** A leaf directly under `parent` keeps its key (unchanged at the top level). */
  lemma LeafKeyKept(fields: seq<(string, Json)>, parent: string, i: nat)
    requires i < |fields| && !fields[i].1.JObj?
    ensures Lookup(FlattenDict(fields, parent), ChildKey(parent, fields[i].0)).Some?
  {
    PartInItems(fields, parent, i, 0);
    assert (ChildKey(parent, fields[i].0), fields[i].1) in Items(fields, parent);
  }

  /** A top-level leaf appears in the flattened dictionary under its own key. */
  lemma TopLevelKeyKept(fields: seq<(string, Json)>, i: nat)
    requires i < |fields| && !fields[i].1.JObj?
    ensures Lookup(FlattenDict(fields), fields[i].0).Some?
  {
    LeafKeyKept(fields, "", i);
  }

  /**
    A leaf one level down, under the object field `k`, appears under the key
    `k_child` (the separator is dropped only when the path so far is empty).
   */
  lemma NestedKeyKept(fields: seq<(string, Json)>, parent: string, i: nat, j: nat)
    requires i < |fields| && fields[i].1.JObj?
    requires j < |fields[i].1.fields| && !fields[i].1.fields[j].1.JObj?
    ensures Lookup(FlattenDict(fields, parent),
                   ChildKey(ChildKey(parent, fields[i].0), fields[i].1.fields[j].0)).Some?
  {
    var key := ChildKey(parent, fields[i].0);
    var sub := fields[i].1.fields;
    var k2 := ChildKey(key, sub[j].0);
    LeafKeyKept(sub, key, j);
    var e :| e in FlattenDict(sub, key) && e.0 == k2;
    PartInItems(fields, parent, i, 0);
    assert e in Items(fields, parent);
  }

  /** The list built from `a + b` is the list built from `a` followed by the one built from `b`. */
  lemma {:induction false} ItemsAppend(a: seq<(string, Json)>, b: seq<(string, Json)>, parent: string, i: nat)
    requires i <= |a|
    ensures Items(a + b, parent, i) == Items(a, parent, i) + Items(b, parent)
    decreases |a| - i
  {
    if i == |a| {
      ItemsSuffix(a, b, parent, 0);
    } else {
      var ab := a + b;
      assert ab[i] == a[i];
      ItemsAppend(a, b, parent, i + 1);
      var p, x, y := Part(a[i], parent), Items(a, parent, i + 1), Items(b, parent);
      assert Items(ab, parent, i) == p + (x + y);
      assert Items(a, parent, i) == p + x;
      Regroup(p, x, y);
    }
  }

  /** Concatenation of item lists may be regrouped. */
  lemma Regroup(p: seq<(string, Json)>, x: seq<(string, Json)>, y: seq<(string, Json)>)
    ensures p + (x + y) == (p + x) + y
  {
  }

  /** Past the end of `a`, the list built from `a + b` is the one built from `b`. */
  lemma {:induction false} ItemsSuffix(a: seq<(string, Json)>, b: seq<(string, Json)>, parent: string, j: nat)
    requires j <= |b|
    ensures Items(a + b, parent, |a| + j) == Items(b, parent, j)
    decreases |b| - j
  {
    ItemsSameTail(a + b, |a| + j, b, j, parent);
  }

  /** The list built from position `i` depends only on the fields from `i` on. */
  lemma {:induction false} ItemsSameTail(f: seq<(string, Json)>, i: nat, g: seq<(string, Json)>, k: nat, parent: string)
    requires i <= |f| && k <= |g| && f[i..] == g[k..]
    ensures Items(f, parent, i) == Items(g, parent, k)
    decreases |f| - i
  {
    assert |f| - i == |g| - k;
    if i < |f| {
      assert f[i] == f[i..][0] == g[k..][0] == g[k];
      assert f[i + 1..] == f[i..][1..] == g[k..][1..] == g[k + 1..];
      ItemsSameTail(f, i + 1, g, k + 1, parent);
    }
  }

  /** A field whose value is an empty object contributes nothing: removing it changes nothing. */
  lemma EmptyObjectContributesNothing(fields: seq<(string, Json)>, parent: string, i: nat)
    requires i < |fields| && fields[i].1 == JObj([])
    ensures FlattenDict(fields[..i] + fields[i + 1..], parent) == FlattenDict(fields, parent)
  {
    var a, b := fields[..i], fields[i + 1..];
    var c := [fields[i]];
    assert fields == a + (c + b);
    EmptyObjectPart(fields[i], parent);
    ItemsAppend(a, c + b, parent, 0);
    ItemsAppend(c, b, parent, 0);
    ItemsAppend(a, b, parent, 0);
    assert Items(c + b, parent) == Items(b, parent);
    assert Items(a + b, parent) == Items(fields, parent);
  }

  /** A one-field object whose value is an empty object yields no items. */
  lemma EmptyObjectPart(field: (string, Json), parent: string)
    requires field.1 == JObj([])
    ensures Items([field], parent) == []
  {
    assert Part(field, parent) == FlattenDict([], ChildKey(parent, field.0));
  }

  /**
    Adding a leaf under a key neither the object nor its flattening holds yet
    appends exactly that entry, at the end.
   */
  lemma AppendFreshLeaf(fields: seq<(string, Json)>, parent: string, k: string, v: Json)
    requires !v.JObj?
    requires Lookup(fields, k).None? && Lookup(FlattenDict(fields, parent), ChildKey(parent, k)).None?
    ensures FlattenDict(fields + [(k, v)], parent) == FlattenDict(fields, parent) + [(ChildKey(parent, k), v)]
  {
    ItemsAppend(fields, [(k, v)], parent, 0);
    assert Items([(k, v)], parent) == [(ChildKey(parent, k), v)];
    DictOfFreshKey(Items(fields, parent), ChildKey(parent, k), v);
  }

  /** Replacing one leaf value by another leaf leaves the keys of the item list as they were. */
  lemma {:induction false} ItemsKeysIgnoreLeafValue(fields: seq<(string, Json)>, parent: string, i: nat, v: Json, j: nat)
    requires i < |fields| && !fields[i].1.JObj? && !v.JObj? && j <= |fields|
    ensures Keys(Items(fields[i := (fields[i].0, v)], parent, j)) == Keys(Items(fields, parent, j))
    decreases |fields| - j
  {
    if j < |fields| {
      var g := fields[i := (fields[i].0, v)];
      ItemsKeysIgnoreLeafValue(fields, parent, i, v, j + 1);
      if j == i {
        assert Part(g[j], parent) == [(ChildKey(parent, fields[i].0), v)];
        assert Part(fields[j], parent) == [(ChildKey(parent, fields[i].0), fields[i].1)];
      } else {
        assert g[j] == fields[j];
      }
      assert Keys(Part(g[j], parent)) == Keys(Part(fields[j], parent));
      KeysAppend(Part(g[j], parent), Items(g, parent, j + 1));
      KeysAppend(Part(fields[j], parent), Items(fields, parent, j + 1));
    }
  }

  /** Replacing one leaf value by another leaf leaves the flattened keys, and their order, as they were. */
  lemma FlattenKeysIgnoreLeafValue(fields: seq<(string, Json)>, parent: string, i: nat, v: Json)
    requires i < |fields| && !fields[i].1.JObj? && !v.JObj?
    ensures Keys(FlattenDict(fields[i := (fields[i].0, v)], parent)) == Keys(FlattenDict(fields, parent))
  {
    ItemsKeysIgnoreLeafValue(fields, parent, i, v, 0);
    DictOfKeysOnly(Items(fields[i := (fields[i].0, v)], parent), Items(fields, parent));
  }
}

=== FILE: heuristic.dfy ===
/**
  The fallback path of the analyzer: the completeness/quality score
  (`_calculate_simple_score`), the templated narrative
  (`_create_basic_analysis`), the keyword-triggered recommendations
  (`_generate_recommendations_based_on_data`) and the record they make up
  together (`_generate_fallback_analysis`).
 */
module Heuristic {
  import opened Wrappers
  import opened Text
  import opened Json
  import opened Flattening

  /** Score every questionnaire starts from. */
  const BaseScore: int := 70
  /** The fallback score never leaves [MinScore, MaxScore]. */
  const MinScore: int := 60
  const MaxScore: int := 95

  /** The six areas whose mention earns a coverage bonus of 3 each. */
  const KeyAreas: seq<string> := ["safety", "environment", "operational", "management", "compliance", "financial"]
  const PositiveWords: seq<string> := ["excellent", "good", "high", "advanced", "comprehensive"]
  const NegativeWords: seq<string> := ["poor", "low", "inadequate", "minimal"]

  /** `str(value)`: a string is itself; any other value goes through the supplied renderer. */
  function Render(show: Json -> string, v: Json): (r: string)
    ensures v.JStr? ==> r == v.s
  {
    if v.JStr? then v.s else show(v)
  }

  /** Some flattened entry mentions `area`, in its key or in its rendered value, ignoring case. */
  predicate Covers(flat: seq<(string, Json)>, area: string, show: Json -> string) {
    exists i :: 0 <= i < |flat| &&
      (Contains(Lower(flat[i].0), area) || Contains(Lower(Render(show, flat[i].1)), area))
  }

  /** How many of `areas` are covered: all of them exactly at the top, none exactly at zero. */
  function CoveredCount(flat: seq<(string, Json)>, show: Json -> string, areas: seq<string>): (r: nat)
    ensures r <= |areas|
    ensures r == |areas| <==> forall i :: 0 <= i < |areas| ==> Covers(flat, areas[i], show)
    ensures r == 0 <==> forall i :: 0 <= i < |areas| ==> !Covers(flat, areas[i], show)
  {
    if |areas| == 0 then 0
    else
      var rest := CoveredCount(flat, show, areas[1..]);
      assert forall i :: 1 <= i < |areas| ==> areas[i] == areas[1..][i - 1];
      (if Covers(flat, areas[0], show) then 1 else 0) + rest
  }

  /** Counting the covered areas of two lists of areas adds up: each area counts on its own. */
  lemma {:induction false} CoveredCountAppend(flat: seq<(string, Json)>, show: Json -> string, a: seq<string>, b: seq<string>)
    ensures CoveredCount(flat, show, a + b) == CoveredCount(flat, show, a) + CoveredCount(flat, show, b)
    decreases |a|
  {
    if |a| > 0 {
      var ab := a + b;
      assert ab[0] == a[0] && ab[1..] == a[1..] + b;
      CoveredCountAppend(flat, show, a[1..], b);
    } else {
      assert a + b == b;
    }
  }

  /** The points one area is worth: 3 when some entry mentions it, 0 otherwise. */
  function AreaPoints(flat: seq<(string, Json)>, show: Json -> string, area: string): nat {
    if Covers(flat, area, show) then 3 else 0
  }

  /** A single area is counted exactly when it is covered. */
  lemma CoveredCountOne(flat: seq<(string, Json)>, show: Json -> string, area: string)
    ensures 3 * CoveredCount(flat, show, [area]) == AreaPoints(flat, show, area)
  {
    assert [area][0] == area;
  }

  /** The coverage bonus: 3 for each of the six key areas mentioned somewhere. */
  function CoverageBonus(flat: seq<(string, Json)>, show: Json -> string): (r: nat)
    ensures r <= 18
    ensures r == 18 <==> forall i :: 0 <= i < |KeyAreas| ==> Covers(flat, KeyAreas[i], show)
    ensures r == 0 <==> forall i :: 0 <= i < |KeyAreas| ==> !Covers(flat, KeyAreas[i], show)
  {
    3 * CoveredCount(flat, show, KeyAreas)
  }

  /** The coverage bonus is the sum of 3 points for each key area covered, area by area. */
  lemma CoverageBonusPerArea(flat: seq<(string, Json)>, show: Json -> string)
    ensures CoverageBonus(flat, show) ==
      AreaPoints(flat, show, KeyAreas[0]) + AreaPoints(flat, show, KeyAreas[1]) + AreaPoints(flat, show, KeyAreas[2]) +
      AreaPoints(flat, show, KeyAreas[3]) + AreaPoints(flat, show, KeyAreas[4]) + AreaPoints(flat, show, KeyAreas[5])
  {
    var k := KeyAreas;
    var p0, p1, p2, p3, p4 := [k[0]], [k[0], k[1]], [k[0], k[1], k[2]], [k[0], k[1], k[2], k[3]], [k[0], k[1], k[2], k[3], k[4]];
    assert p1 == p0 + [k[1]] && p2 == p1 + [k[2]] && p3 == p2 + [k[3]] && p4 == p3 + [k[4]] && k == p4 + [k[5]];
    CoveredCountAppend(flat, show, p0, [k[1]]);
    CoveredCountAppend(flat, show, p1, [k[2]]);
    CoveredCountAppend(flat, show, p2, [k[3]]);
    CoveredCountAppend(flat, show, p3, [k[4]]);
    CoveredCountAppend(flat, show, p4, [k[5]]);
    CoveredCountOne(flat, show, k[0]);
    CoveredCountOne(flat, show, k[1]);
    CoveredCountOne(flat, show, k[2]);
    CoveredCountOne(flat, show, k[3]);
    CoveredCountOne(flat, show, k[4]);
    CoveredCountOne(flat, show, k[5]);
  }

  /** Covering is kept when entries are added. */
  lemma CoversAppend(flat: seq<(string, Json)>, e: (string, Json), area: string, show: Json -> string)
    requires Covers(flat, area, show)
    ensures Covers(flat + [e], area, show)
  {
    var i :| 0 <= i < |flat| &&
      (Contains(Lower(flat[i].0), area) || Contains(Lower(Render(show, flat[i].1)), area));
    assert (flat + [e])[i] == flat[i];
  }

  /** Adding an entry never lowers the number of covered areas. */
  lemma {:induction false} CoverageMonotone(flat: seq<(string, Json)>, e: (string, Json), show: Json -> string, areas: seq<string>)
    ensures CoveredCount(flat + [e], show, areas) >= CoveredCount(flat, show, areas)
  {
    if |areas| > 0 {
      CoverageMonotone(flat, e, show, areas[1..]);
      if Covers(flat, areas[0], show) {
        CoversAppend(flat, e, areas[0], show);
      }
    }
  }

  /** Two points per flattened entry, capped at 20. */
  function CompletenessBonus(n: nat): (r: nat)
    ensures r <= 20 && r <= 2 * n
    ensures r == 20 <==> n >= 10
    ensures n < 10 ==> r == 2 * n
  {
    if 2 * n < 20 then 2 * n else 20
  }

  /** A string value only a negative word speaks for. */
  predicate NegativeOnly(v: Json) {
    v.JStr? && !ContainsAny(Lower(v.s), PositiveWords) && ContainsAny(Lower(v.s), NegativeWords)
  }

  /**
    The quality bonus of one value: +1 for a positive number (a JSON `true`
    counts, since Python's `bool` is an `int`), +2 for a string with a positive
    word, -1 for a string with only a negative word, 0 otherwise.
   */
  function QualityOf(v: Json): (r: int)
    ensures -1 <= r <= 2
    ensures r == 2 <==> v.JStr? && ContainsAny(Lower(v.s), PositiveWords)
    ensures r == -1 <==> NegativeOnly(v)
    ensures r == 1 <==> (v.JNum? && v.n > 0.0) || v == JBool(true)
  {
    match v
    case JNum(n) => if n > 0.0 then 1 else 0
    case JBool(b) => if b then 1 else 0
    case JStr(s) =>
      if ContainsAny(Lower(s), PositiveWords) then 2
      else if ContainsAny(Lower(s), NegativeWords) then -1
      else 0
    case _ => 0
  }

  /** A string with both a positive and a negative word earns the positive bonus. */
  lemma PositiveWinsOverNegative(s: string)
    requires ContainsAny(Lower(s), PositiveWords) && ContainsAny(Lower(s), NegativeWords)
    ensures QualityOf(JStr(s)) == 2
  {
  }

  /**
    Sum of the quality bonuses over the entries: between -1 and +2 per entry,
    and never negative when no entry is a negative-only string.
   */
  function QualityBonus(flat: seq<(string, Json)>): (r: int)
    ensures -|flat| <= r <= 2 * |flat|
    ensures (forall i :: 0 <= i < |flat| ==> !NegativeOnly(flat[i].1)) ==> r >= 0
  {
    if |flat| == 0 then 0
    else QualityBonus(flat[..|flat| - 1]) + QualityOf(flat[|flat| - 1].1)
  }

  /** `max(60, min(95, x))`. */
  function Clamp(x: int): (r: int)
    ensures MinScore <= r <= MaxScore
    ensures MinScore <= x <= MaxScore ==> r == x
    ensures x < MinScore ==> r == MinScore
    ensures x > MaxScore ==> r == MaxScore
  {
    if x < MinScore then MinScore else if x > MaxScore then MaxScore else x
  }

  /**
    The score of a flattened questionnaire: base 70 plus coverage, completeness
    and quality, clamped to [60, 95]. Without negative-only strings it is at least 70.
   */
  function FlatScore(flat: seq<(string, Json)>, show: Json -> string): (r: int)
    ensures MinScore <= r <= MaxScore
    ensures (forall i :: 0 <= i < |flat| ==> !NegativeOnly(flat[i].1)) ==> r >= BaseScore
  {
    Clamp(BaseScore + CoverageBonus(flat, show) + CompletenessBonus(|flat|) + QualityBonus(flat))
  }

  /**
    The score is exactly the clamped sum `raw` of its four parts: the base 70
    and the coverage, completeness and quality bonuses, each pinned by its own
    lemmas.
   */
  lemma FlatScoreParts(flat: seq<(string, Json)>, show: Json -> string, raw: int)
    requires raw == BaseScore + CoverageBonus(flat, show) + CompletenessBonus(|flat|) + QualityBonus(flat)
    ensures FlatScore(flat, show) == Clamp(raw)
  {
  }

  /**
    `_calculate_simple_score(answers)`: 70 plus the coverage, completeness and
    quality bonuses of the flattened answers, clamped to [60, 95].
   */
  function SimpleScore(answers: seq<(string, Json)>, show: Json -> string): (r: int)
    ensures MinScore <= r <= MaxScore
  {
    FlatScore(FlattenDict(answers), show)
  }

  /** The fallback score is the clamped sum `raw` of the four parts over the flattened answers. */
  lemma SimpleScoreParts(answers: seq<(string, Json)>, show: Json -> string, raw: int)
    requires var flat := FlattenDict(answers);
      raw == BaseScore + CoverageBonus(flat, show) + CompletenessBonus(|flat|) + QualityBonus(flat)
    ensures SimpleScore(answers, show) == Clamp(raw)
  {
    FlatScoreParts(FlattenDict(answers), show, raw);
  }

  /** The quality bonus is additive: split the entries anywhere and the two bonuses add up. */
  lemma {:induction false} QualityBonusAppend(a: seq<(string, Json)>, b: seq<(string, Json)>)
    ensures QualityBonus(a + b) == QualityBonus(a) + QualityBonus(b)
    decreases |b|
  {
    if |b| > 0 {
      var b' := b[..|b| - 1];
      assert (a + b)[..|a + b| - 1] == a + b';
      assert (a + b)[|a + b| - 1] == b[|b| - 1];
      QualityBonusAppend(a, b');
    } else {
      assert a + b == a;
    }
  }

  /**
    The quality bonus of a single entry is the bonus of its value; with
    `QualityBonusAppend` this makes the bonus the sum of `QualityOf` over the
    entries, the loop of `_calculate_simple_score`.
   */
  lemma QualityBonusOne(e: (string, Json))
    ensures QualityBonus([e]) == QualityOf(e.1)
  {
  }

  /**
    A questionnaire that mentions all six areas, has at least ten entries and
    no negative-only string reaches the ceiling of 95.
   */
  lemma RichQuestionnaireScoresMax(flat: seq<(string, Json)>, show: Json -> string)
    requires forall i :: 0 <= i < |KeyAreas| ==> Covers(flat, KeyAreas[i], show)
    requires |flat| >= 10
    requires forall i :: 0 <= i < |flat| ==> !NegativeOnly(flat[i].1)
    ensures FlatScore(flat, show) == MaxScore
  {
    assert CoverageBonus(flat, show) == 18;
    assert CompletenessBonus(|flat|) == 20;
  }

  /** An empty questionnaire scores the base score exactly. */
  lemma EmptyScoresBase(show: Json -> string)
    ensures SimpleScore([], show) == BaseScore
  {
    assert FlattenDict([]) == [];
    assert CoverageBonus([], show) == 0;
  }

  /** One more entry holding a positive number never lowers the score of a flattened questionnaire. */
  lemma PositiveEntryNeverLowersFlatScore(flat: seq<(string, Json)>, k: string, x: real, show: Json -> string)
    requires x > 0.0
    ensures FlatScore(flat + [(k, JNum(x))], show) >= FlatScore(flat, show)
  {
    var e := (k, JNum(x));
    var more := flat + [e];
    CoverageBonusMonotone(flat, e, show);
    assert QualityBonus(more) == QualityBonus(flat) + 1 by {
      QualityBonusAppend(flat, [e]);
      assert [e][..0] == [];
    }
    assert CompletenessBonus(|more|) >= CompletenessBonus(|flat|);
    ClampMonotone(BaseScore + CoverageBonus(flat, show) + CompletenessBonus(|flat|) + QualityBonus(flat),
                  BaseScore + CoverageBonus(more, show) + CompletenessBonus(|more|) + QualityBonus(more));
  }

  /** One more entry never lowers the coverage bonus. */
  lemma CoverageBonusMonotone(flat: seq<(string, Json)>, e: (string, Json), show: Json -> string)
    ensures CoverageBonus(flat + [e], show) >= CoverageBonus(flat, show)
  {
    CoverageMonotone(flat, e, show, KeyAreas);
  }

  /** Clamping keeps the order of its arguments. */
  lemma ClampMonotone(x: int, y: int)
    requires x <= y
    ensures Clamp(x) <= Clamp(y)
  {
  }

  /**
    Answering one more question, under a fresh key, with a positive number
    never lowers the score.
   */
  lemma PositiveAnswerNeverLowersScore(answers: seq<(string, Json)>, k: string, x: real, show: Json -> string)
    requires x > 0.0
    requires Lookup(answers, k).None? && Lookup(FlattenDict(answers), k).None?
    ensures SimpleScore(answers + [(k, JNum(x))], show) >= SimpleScore(answers, show)
  {
    AppendFreshLeaf(answers, "", k, JNum(x));
    PositiveEntryNeverLowersFlatScore(FlattenDict(answers), k, x, show);
  }

  /** The four performance bands of the narrative. */
  datatype Band = NeedsImprovement | Satisfactory | Good | Excellent

  /** Position of a band, from worst to best. */
  function Rank(b: Band): nat {
    match b
    case NeedsImprovement => 0
    case Satisfactory => 1
    case Good => 2
    case Excellent => 3
  }

  /** The band a score falls into: at least 85, 75, 65, or below. */
  function BandOf(score: int): (r: Band)
    ensures r == Excellent <==> score >= 85
    ensures r == Good <==> 75 <= score < 85
    ensures r == Satisfactory <==> 65 <= score < 75
    ensures r == NeedsImprovement <==> score < 65
  {
    if score >= 85 then Excellent
    else if score >= 75 then Good
    else if score >= 65 then Satisfactory
    else NeedsImprovement
  }

  /**
    A higher score never lands in a worse band, and the bands change exactly at
    85, 75 and 65.
   */
  lemma BandMonotone(s1: int, s2: int)
    requires s1 <= s2
    ensures Rank(BandOf(s1)) <= Rank(BandOf(s2))
    ensures BandOf(s1) != BandOf(s2) <==> s1 < 65 <= s2 || s1 < 75 <= s2 || s1 < 85 <= s2
  {
  }

  /** The phrase the narrative uses for each band. */
  function Phrase(b: Band): string {
    match b
    case Excellent => "demonstrates excellent performance"
    case Good => "shows good performance with room for improvement"
    case Satisfactory => "indicates satisfactory performance requiring attention"
    case NeedsImprovement => "reveals areas needing significant improvement"
  }

  /** A Python truthiness test on an optional string: present and non-empty. */
  predicate Given(name: Option<string>) {
    name.Some? && name.value != ""
  }

  const AnalysisLead: string := "Based on the mining evaluation questionnaire with "
  const DataPoints: string := " data points"
  const SystemIs: string := ", the system "
  const AnalysisBody: string :=
    ".\n\nTECHNICAL ASSESSMENT:\n"
    + "The evaluation covers multiple operational areas. Data completeness suggests a structured approach to mining operations management.\n\n"
    + "COMPLIANCE & MANAGEMENT:\n"
    + "The provided information indicates awareness of regulatory and operational requirements. Management systems appear to be documented.\n\n"
    + "RECOMMENDATIONS FOCUS:\n"
    + "Key areas for enhancement include safety protocol optimization, environmental impact monitoring, and operational efficiency improvements.\n\n"
  /** The disclosure that closes every fallback narrative. */
  const FallbackNote: string :=
    "Note: This analysis was generated using fallback system due to API limitations. For detailed AI-powered analysis, please try again later."

  /** The mention of the supporting file, empty when no file name is given. */
  function FileNote(fileName: Option<string>): (r: string)
    ensures Given(fileName) ==> r == FileMentionLead + fileName.value + "'"
    ensures r == "" <==> !Given(fileName)
  {
    if Given(fileName) then FileMentionLead + fileName.value + "'" else ""
  }

  /** The words that introduce the file name in the narrative. */
  const FileMentionLead: string := " and supporting file '"

  /** The mention names the file: the name can be read back from it, so different names give different mentions. */
  lemma FileNoteNamesTheFile(a: Option<string>, b: Option<string>)
    requires Given(a)
    ensures var m := FileNote(a);
            |m| == |FileMentionLead| + |a.value| + 1 && m[|FileMentionLead|..|m| - 1] == a.value
    ensures Given(b) && FileNote(a) == FileNote(b) ==> a == b
  {
    var m := FileNote(a);
    assert m[|FileMentionLead|..|m| - 1] == a.value;
    if Given(b) && FileNote(a) == FileNote(b) {
      var n := FileNote(b);
      assert n[|FileMentionLead|..|n| - 1] == b.value;
    }
  }

  /**
    The narrative laid out from its pieces: `lead count points note system phrase body disclosure`.
    It starts with `lead count points`, ends with the disclosure, contains the
    phrase, and contains the note.
   */
  function Narrative(lead: string, count: string, points: string, note: string, system: string,
                     phrase: string, body: string, disclosure: string): (r: string)
    ensures StartsWith(r, lead + count + points)
    ensures EndsWith(r, disclosure)
    ensures Contains(r, phrase)
    ensures Contains(r, note)
  {
    var head, ending := lead + count + points, body + disclosure;
    var tail := system + phrase + ending;
    ConcatParts(head, note, tail);
    ConcatParts(system, phrase, ending);
    ContainsInConcat(head + note, tail, phrase);
    EndsWithAppend(body, disclosure);
    EndsWithTrans(head + note + tail, tail, ending);
    EndsWithTrans(head + note + tail, ending, disclosure);
    head + note + tail
  }

  /**
    `_create_basic_analysis`: opens with the number of flattened data points,
    names the band of `score`, mentions the file when a name is given, and
    ends with the fallback disclosure.
   */
  function BasicAnalysis(answers: seq<(string, Json)>, fileName: Option<string>, score: int): (r: string)
    ensures StartsWith(r, AnalysisLead + Decimal(|FlattenDict(answers)|) + DataPoints)
    ensures EndsWith(r, FallbackNote)
    ensures Contains(r, Phrase(BandOf(score)))
    ensures Given(fileName) ==> Contains(r, FileMentionLead + fileName.value + "'")
  {
    Narrative(AnalysisLead, Decimal(|FlattenDict(answers)|), DataPoints, FileNote(fileName), SystemIs,
              Phrase(BandOf(score)), AnalysisBody, FallbackNote)
  }

  /** A narrative with a note is the one without, with the note spliced in right after the head. */
  lemma NarrativeNoteSplice(lead: string, count: string, points: string, note: string, system: string,
                            phrase: string, body: string, disclosure: string)
    ensures var plain := Narrative(lead, count, points, "", system, phrase, body, disclosure);
            var at := |lead + count + points|;
            at <= |plain| &&
            Narrative(lead, count, points, note, system, phrase, body, disclosure) == plain[..at] + note + plain[at..]
  {
    var head, tail := lead + count + points, system + phrase + (body + disclosure);
    var plain := Narrative(lead, count, points, "", system, phrase, body, disclosure);
    assert plain == head + tail;
    assert plain[..|head|] == head && plain[|head|..] == tail;
  }

  /**
    The file name changes nothing but the inserted mention: the narrative with a
    name is the one without, with " and supporting file '<name>'" spliced in
    right after the data-point count; an empty name is no name at all.
   */
  lemma FileMentionIsTheOnlyDifference(answers: seq<(string, Json)>, name: string, score: int)
    ensures name == "" ==> BasicAnalysis(answers, Some(name), score) == BasicAnalysis(answers, None, score)
    ensures var plain := BasicAnalysis(answers, None, score);
            var at := |AnalysisLead + Decimal(|FlattenDict(answers)|) + DataPoints|;
            name != "" ==>
              at <= |plain| &&
              BasicAnalysis(answers, Some(name), score) == plain[..at] + FileNote(Some(name)) + plain[at..]
  {
    if name == "" {
      assert FileNote(Some(name)) == FileNote(None);
    } else {
      var count, phrase, note := Decimal(|FlattenDict(answers)|), Phrase(BandOf(score)), FileNote(Some(name));
      assert BasicAnalysis(answers, None, score) ==
             Narrative(AnalysisLead, count, DataPoints, "", SystemIs, phrase, AnalysisBody, FallbackNote);
      assert BasicAnalysis(answers, Some(name), score) ==
             Narrative(AnalysisLead, count, DataPoints, note, SystemIs, phrase, AnalysisBody, FallbackNote);
      NarrativeNoteSplice(AnalysisLead, count, DataPoints, note, SystemIs, phrase, AnalysisBody, FallbackNote);
    }
  }

  /** The recommendations the fallback path can give: four specific ones and three defaults. */
  datatype Advice =
    | SafetyAdvice | EnvironmentAdvice | OperationsAdvice | WorkforceAdvice
    | MonitoringAdvice | ComplianceAdvice | ImprovementAdvice

  /** The text of each recommendation. */
  function AdviceText(a: Advice): string {
    match a
    case SafetyAdvice => "Enhance safety protocols and monitoring systems"
    case EnvironmentAdvice => "Strengthen environmental impact mitigation strategies"
    case OperationsAdvice => "Optimize operational efficiency and resource utilization"
    case WorkforceAdvice => "Develop comprehensive workforce management programs"
    case MonitoringAdvice => "Implement comprehensive monitoring systems"
    case ComplianceAdvice => "Enhance regulatory compliance procedures"
    case ImprovementAdvice => "Develop continuous improvement strategies"
  }

  /** The three recommendations given when no key triggers a specific one. */
  const DefaultAdvice: seq<Advice> := [MonitoringAdvice, ComplianceAdvice, ImprovementAdvice]

  /** Some key, lower-cased, contains one of `words`. */
  predicate KeyMentions(keys: seq<string>, words: seq<string>) {
    exists i :: 0 <= i < |keys| && ContainsAny(Lower(keys[i]), words)
  }

  /** The key words that trigger each specific recommendation. */
  function Triggers(a: Advice): seq<string> {
    match a
    case SafetyAdvice => ["safety"]
    case EnvironmentAdvice => ["environment"]
    case OperationsAdvice => ["operational", "efficiency"]
    case WorkforceAdvice => ["management", "workforce"]
    case _ => []
  }

  /** The fixed order of the specific recommendations. */
  const SpecificAdvice: seq<Advice> := [SafetyAdvice, EnvironmentAdvice, OperationsAdvice, WorkforceAdvice]

  /** Strictly increasing priority along the list. */
  predicate Ordered(r: seq<Advice>) {
    forall i, j :: 0 <= i < j < |r| ==> Priority(r[i]) < Priority(r[j])
  }

  /** The specific recommendations are listed by strictly increasing priority. */
  lemma SpecificAdviceOrdered()
    ensures Ordered(SpecificAdvice)
  {
  }

  /** Position of a recommendation in the fixed order; the defaults come after all specific ones. */
  function Priority(a: Advice): nat {
    match a
    case SafetyAdvice => 0
    case EnvironmentAdvice => 1
    case OperationsAdvice => 2
    case WorkforceAdvice => 3
    case _ => 4
  }

  /** The recommendations among `cands` that have `fired`, in their order. */
  function Triggered(fired: Advice -> bool, cands: seq<Advice>): (r: seq<Advice>)
    ensures |r| <= |cands|
    ensures forall a :: a in r <==> a in cands && fired(a)
  {
    if |cands| == 0 then []
    else (if fired(cands[0]) then [cands[0]] else []) + Triggered(fired, cands[1..])
  }

  /** Keeping some elements of a list ordered by priority keeps it ordered. */
  lemma {:induction false} TriggeredOrdered(fired: Advice -> bool, cands: seq<Advice>)
    requires Ordered(cands)
    ensures Ordered(Triggered(fired, cands))
  {
    if |cands| > 0 {
      var tail := cands[1..];
      assert Ordered(tail) by {
        forall i, j | 0 <= i < j < |tail| ensures Priority(tail[i]) < Priority(tail[j]) {
          assert tail[i] == cands[i + 1] && tail[j] == cands[j + 1];
        }
      }
      TriggeredOrdered(fired, tail);
      var rest := Triggered(fired, tail);
      if fired(cands[0]) {
        forall x | x in rest ensures Priority(cands[0]) < Priority(x) {
          var j :| 0 <= j < |tail| && tail[j] == x;
          assert tail[j] == cands[j + 1];
        }
        ConsOrdered(cands[0], rest);
        assert Triggered(fired, cands) == [cands[0]] + rest;
      } else {
        assert Triggered(fired, cands) == rest;
      }
    }
  }

  /** An ordered list stays ordered when an item of lower priority than all of it is put in front. */
  lemma ConsOrdered(a: Advice, rest: seq<Advice>)
    requires Ordered(rest) && forall x :: x in rest ==> Priority(a) < Priority(x)
    ensures Ordered([a] + rest)
  {
    var r := [a] + rest;
    forall i, j | 0 <= i < j < |r| ensures Priority(r[i]) < Priority(r[j]) {
      assert r[j] == rest[j - 1] && rest[j - 1] in rest;
      if i > 0 {
        assert r[i] == rest[i - 1];
      }
    }
  }

  /** `s[:n]`. */
  function Take<T>(s: seq<T>, n: nat): (r: seq<T>)
    ensures |r| <= n && |r| <= |s| && r == s[..|r|]
    ensures |s| <= n ==> r == s
  {
    if |s| <= n then s else s[..n]
  }

  /**
    The recommendations once it is known which specific ones have fired: those,
    in the fixed order, or the three defaults when none has; at most four
    (the source's final `[:4]` never cuts anything).
   */
  function Choose(fired: Advice -> bool): (r: seq<Advice>)
    ensures 1 <= |r| <= 4
    ensures forall a :: a in SpecificAdvice ==> (a in r <==> fired(a))
    ensures r == DefaultAdvice <==> forall a :: a in SpecificAdvice ==> !fired(a)
    ensures (exists a :: a in SpecificAdvice && fired(a)) ==> forall a :: a in r ==> a in SpecificAdvice
    ensures r != DefaultAdvice ==> Ordered(r)
    ensures forall i, j :: 0 <= i < j < |r| ==> r[i] != r[j]
  {
    var specific := Triggered(fired, SpecificAdvice);
    SpecificFacts(fired);
    DefaultAdviceFacts();
    if |specific| == 0 then
      var r := Take(DefaultAdvice, 4);
      assert r == DefaultAdvice;
      r
    else
      var r := Take(specific, 4);
      assert r == specific && r[0] !in DefaultAdvice;
      r
  }

  /**
    The fired specific recommendations: at most four, in the fixed order,
    without repeats, never a default one, and none exactly when nothing fired.
   */
  lemma SpecificFacts(fired: Advice -> bool)
    ensures var specific := Triggered(fired, SpecificAdvice);
            && |specific| <= 4
            && Ordered(specific)
            && (forall i, j :: 0 <= i < j < |specific| ==> specific[i] != specific[j])
            && (forall a :: a in specific ==> a in SpecificAdvice && a !in DefaultAdvice)
            && (|specific| == 0 <==> forall a :: a in SpecificAdvice ==> !fired(a))
  {
    var specific := Triggered(fired, SpecificAdvice);
    SpecificAdviceOrdered();
    TriggeredOrdered(fired, SpecificAdvice);
    OrderedDistinct(specific);
    DefaultAdviceFacts();
    if |specific| > 0 {
      assert specific[0] in specific;
    }
  }

  /** The defaults are three distinct recommendations, none of them a specific one. */
  lemma DefaultAdviceFacts()
    ensures |DefaultAdvice| == 3
    ensures forall i, j :: 0 <= i < j < |DefaultAdvice| ==> DefaultAdvice[i] != DefaultAdvice[j]
    ensures forall a :: a in SpecificAdvice ==> a !in DefaultAdvice
    ensures MonitoringAdvice in DefaultAdvice && MonitoringAdvice !in SpecificAdvice
  {
  }

  /** A list ordered by strictly increasing priority repeats nothing. */
  lemma OrderedDistinct(r: seq<Advice>)
    requires Ordered(r)
    ensures forall i, j :: 0 <= i < j < |r| ==> r[i] != r[j]
  {
  }

  /**
    The recommendations for the flattened keys: each specific one present
    exactly when one of its trigger words occurs in some key, in the fixed
    order safety, environment, operations, workforce, none twice; exactly the
    three defaults when nothing triggers; never more than four.
   */
  function Recommendations(keys: seq<string>): (r: seq<Advice>)
    ensures 1 <= |r| <= 4
    ensures forall a :: a in SpecificAdvice ==> (a in r <==> KeyMentions(keys, Triggers(a)))
    ensures r == DefaultAdvice <==> forall a :: a in SpecificAdvice ==> !KeyMentions(keys, Triggers(a))
    ensures (exists a :: a in SpecificAdvice && KeyMentions(keys, Triggers(a))) ==> forall a :: a in r ==> a in SpecificAdvice
    ensures r != DefaultAdvice ==> Ordered(r)
    ensures forall i, j :: 0 <= i < j < |r| ==> r[i] != r[j]
  {
    Choose((a: Advice) => KeyMentions(keys, Triggers(a)))
  }

  /** `_generate_recommendations_based_on_data(answers)`: recommendations from the flattened keys. */
  function RecommendationsFor(answers: seq<(string, Json)>): (r: seq<Advice>)
    ensures 1 <= |r| <= 4
  {
    Recommendations(Keys(FlattenDict(answers)))
  }

  /** Recommendations look at keys only: changing a leaf value to another leaf leaves them unchanged. */
  lemma RecommendationsIgnoreValues(answers: seq<(string, Json)>, i: nat, v: Json)
    requires i < |answers| && !answers[i].1.JObj? && !v.JObj?
    ensures RecommendationsFor(answers[i := (answers[i].0, v)]) == RecommendationsFor(answers)
  {
    FlattenKeysIgnoreLeafValue(answers, "", i, v);
  }

  /** The texts of a list of recommendations. */
  function AdviceTexts(advice: seq<Advice>): (r: seq<string>)
    ensures |r| == |advice|
    ensures forall i :: 0 <= i < |advice| ==> r[i] == AdviceText(advice[i])
  {
    seq(|advice|, i requires 0 <= i < |advice| => AdviceText(advice[i]))
  }

  /**
    `_generate_fallback_analysis`: the record of the fallback path, carrying the
    heuristic score, the templated narrative and the recommendations.
   */
  function FallbackAnalysis(answers: seq<(string, Json)>, fileName: Option<string>, show: Json -> string): (r: Json)
    ensures r.JObj?
    ensures Lookup(r.fields, "score") == Some(JNum(SimpleScore(answers, show) as real))
    ensures Lookup(r.fields, "analysis") == Some(JStr(BasicAnalysis(answers, fileName, SimpleScore(answers, show))))
    ensures Lookup(r.fields, "recommendations") == Some(StrArray(AdviceTexts(RecommendationsFor(answers))))
  {
    var score := SimpleScore(answers, show);
    AnalysisRecord(BasicAnalysis(answers, fileName, score), score, AdviceTexts(RecommendationsFor(answers)))
  }
}

=== FILE: json.dfy ===
/**
  The JSON value tree that `json.loads` produces, and the two dictionary
  operations the evaluator performs on it: building a `dict` from a list of
  key/value pairs (`dict(items)`) and looking a key up (`d[key]`).

  An object is an association list: the insertion order of a Python `dict`
  is part of the observable behaviour (it fixes the order of the flattened
  entries), so a `map` would lose information.
 */
module Json {
  import opened Wrappers

  /**
    A JSON value. A number is the `real` value Python holds after parsing:
    an `int` exactly, a `float` as the value of its double, so any rounding
    or underflow of a decimal literal is done by `json.loads` before it gets
    here. `NaN` and the infinities (written out, or an overflowing literal
    such as `1e400`) have no `real` value.
    An object is its list of fields; `json.loads` never returns one with a
    repeated key, and the operations that add a field ask for a new key.
   */
  datatype Json =
    | JNull
    | JBool(b: bool)
    | JNum(n: real)
    | JStr(s: string)
    | JArr(items: seq<Json>)
    | JObj(fields: seq<(string, Json)>)

  /** The value a Python `dict` built from `items` holds for `k`: the one assigned last. */
  function Lookup<V>(items: seq<(string, V)>, k: string): (r: Option<V>)
    ensures r.None? <==> forall i :: 0 <= i < |items| ==> items[i].0 != k
    ensures r.Some? ==> exists i :: 0 <= i < |items| && items[i] == (k, r.value)
  {
    if |items| == 0 then None
    else if items[|items| - 1].0 == k then Some(items[|items| - 1].1)
    else Lookup(items[..|items| - 1], k)
  }

  /** The value looked up is the one bound last: no later item has the key. */
  lemma {:induction false} LookupIsLast<V>(items: seq<(string, V)>, k: string)
    requires Lookup(items, k).Some?
    ensures exists i :: 0 <= i < |items| && items[i] == (k, Lookup(items, k).value) &&
                        forall j :: i < j < |items| ==> items[j].0 != k
    decreases |items|
  {
    var n := |items| - 1;
    var v := Lookup(items, k).value;
    if items[n].0 != k {
      var init := items[..n];
      assert Lookup(items, k) == Lookup(init, k);
      LookupIsLast(init, k);
      var i :| 0 <= i < |init| && init[i] == (k, v) && forall j :: i < j < |init| ==> init[j].0 != k;
      assert forall j :: 0 <= j < n ==> items[j] == init[j];
      assert items[i] == (k, v) && forall j :: i < j < |items| ==> items[j].0 != k;
    } else {
      assert items[n] == (k, v);
    }
  }

  /** No key appears twice: the shape of every Python `dict`. */
  predicate UniqueKeys<V>(d: seq<(string, V)>) {
    forall i, j :: 0 <= i < j < |d| ==> d[i].0 != d[j].0
  }

  /** In a dictionary without repeated keys, the entry holding `k` is what a lookup finds. */
  lemma LookupUnique<V>(d: seq<(string, V)>, i: nat)
    requires UniqueKeys(d) && i < |d|
    ensures Lookup(d, d[i].0) == Some(d[i].1)
  {
    if i < |d| - 1 {
      LookupUnique(d[..|d| - 1], i);
    }
  }

  /** Position of key `k` in `d`, if present. */
  function IndexOf<V>(d: seq<(string, V)>, k: string): (r: Option<nat>)
    ensures r.Some? ==> r.value < |d| && d[r.value].0 == k
    ensures r.None? ==> forall i :: 0 <= i < |d| ==> d[i].0 != k
  {
    if |d| == 0 then None
    else if d[|d| - 1].0 == k then Some(|d| - 1)
    else IndexOf(d[..|d| - 1], k)
  }

  /**
    `d[k] = v` on a Python `dict`: an existing key keeps its position and gets
    the new value; a new key is appended at the end.
   */
  function Put<V>(d: seq<(string, V)>, k: string, v: V): (r: seq<(string, V)>)
    requires UniqueKeys(d)
    ensures UniqueKeys(r)
    ensures Lookup(r, k) == Some(v)
    ensures forall k' :: k' != k ==> Lookup(r, k') == Lookup(d, k')
    ensures (exists i :: 0 <= i < |d| && d[i].0 == k) ==> |r| == |d|
    ensures (forall i :: 0 <= i < |d| ==> d[i].0 != k) ==> r == d + [(k, v)]
    ensures forall e :: e in r ==> e in d || e == (k, v)
  {
    match IndexOf(d, k)
    case None => d + [(k, v)]
    case Some(i) =>
      var r := d[i := (k, v)];
      LookupUnique(r, i);
      forall k' | k' != k
        ensures Lookup(r, k') == Lookup(d, k')
      {
        LookupOtherKey(d, i, (k, v), k');
      }
      r
  }

  /** Replacing the entry at `i` does not affect lookups of keys other than the two involved. */
  lemma LookupOtherKey<V>(d: seq<(string, V)>, i: nat, e: (string, V), k': string)
    requires i < |d| && d[i].0 == e.0 && k' != e.0
    ensures Lookup(d[i := e], k') == Lookup(d, k')
  {
    if i < |d| - 1 {
      assert d[i := e][..|d| - 1] == d[..|d| - 1][i := e];
      LookupOtherKey(d[..|d| - 1], i, e, k');
    } else {
      assert d[i := e][..|d| - 1] == d[..|d| - 1];
    }
  }

  /**
    `dict(items)`: assign the pairs in order. The result has no repeated key,
    answers every lookup as the list of assignments would (the last value for a
    key wins), is no longer than the list, and every entry comes from the list.
   */
  function DictOf<V>(items: seq<(string, V)>): (r: seq<(string, V)>)
    ensures UniqueKeys(r)
    ensures forall k :: Lookup(r, k) == Lookup(items, k)
    ensures |r| <= |items|
    ensures forall e :: e in r ==> e in items
  {
    if |items| == 0 then []
    else
      var front := items[..|items| - 1];
      var last := items[|items| - 1];
      var r := Put(DictOf(front), last.0, last.1);
      assert forall e :: e in front ==> e in items;
      r
  }

  /** The keys of `dict(items)` are exactly the keys assigned. */
  lemma DictOfKeys<V>(items: seq<(string, V)>, k: string)
    ensures (exists i :: 0 <= i < |DictOf(items)| && DictOf(items)[i].0 == k) <==>
            (exists i :: 0 <= i < |items| && items[i].0 == k)
  {
    var d := DictOf(items);
    assert Lookup(d, k) == Lookup(items, k);
    if exists i :: 0 <= i < |items| && items[i].0 == k {
      var i :| 0 <= i < |items| && items[i].0 == k;
      assert Lookup(items, k).Some?;
      var j :| 0 <= j < |d| && d[j] == (k, Lookup(d, k).value);
      assert d[j].0 == k;
      assert exists i :: 0 <= i < |d| && d[i].0 == k;
      assert exists i :: 0 <= i < |DictOf(items)| && DictOf(items)[i].0 == k;
    }
  }

  /** Assigning a key not yet present appends it to the dictionary. */
  lemma {:induction false} DictOfFreshKey<V>(items: seq<(string, V)>, k: string, v: V)
    requires forall i :: 0 <= i < |items| ==> items[i].0 != k
    ensures DictOf(items + [(k, v)]) == DictOf(items) + [(k, v)]
  {
    assert (items + [(k, v)])[..|items|] == items;
    DictOfKeys(items, k);
  }

  /** The keys of an association list, in order. */
  function Keys<V>(d: seq<(string, V)>): (r: seq<string>)
    ensures |r| == |d|
    ensures forall i :: 0 <= i < |d| ==> r[i] == d[i].0
  {
    if |d| == 0 then [] else [d[0].0] + Keys(d[1..])
  }

  /** The keys of a concatenation. */
  lemma KeysAppend<V>(a: seq<(string, V)>, b: seq<(string, V)>)
    ensures Keys(a + b) == Keys(a) + Keys(b)
  {
    assert forall i :: 0 <= i < |a + b| ==> Keys(a + b)[i] == (Keys(a) + Keys(b))[i];
  }

  /** Which keys `dict(items)` ends with, and in what order, depends on the keys assigned only. */
  lemma {:induction false} DictOfKeysOnly<V>(a: seq<(string, V)>, b: seq<(string, V)>)
    requires Keys(a) == Keys(b)
    ensures Keys(DictOf(a)) == Keys(DictOf(b))
  {
    if |a| > 0 {
      var n := |a| - 1;
      assert Keys(a[..n]) == Keys(b[..n]) by {
        assert forall i :: 0 <= i < n ==> Keys(a)[i] == a[..n][i].0;
      }
      DictOfKeysOnly(a[..n], b[..n]);
      var da, db := DictOf(a[..n]), DictOf(b[..n]);
      assert a[n].0 == Keys(a)[n] == Keys(b)[n] == b[n].0;
      PutKeys(da, a[n].0, a[n].1);
      PutKeys(db, b[n].0, b[n].1);
    }
  }

  /** The keys after `d[k] = v`: unchanged if `k` was present, `k` appended otherwise. */
  lemma PutKeys<V>(d: seq<(string, V)>, k: string, v: V)
    requires UniqueKeys(d)
    ensures Keys(Put(d, k, v)) == if k in Keys(d) then Keys(d) else Keys(d) + [k]
  {
    var r := Put(d, k, v);
    if k in Keys(d) {
      var i := IndexOf(d, k).value;
      assert r == d[i := (k, v)];
    } else {
      assert forall i :: 0 <= i < |d| ==> d[i].0 != k by {
        forall i | 0 <= i < |d| ensures d[i].0 != k {
          assert Keys(d)[i] == d[i].0;
        }
      }
    }
  }

  /**
    The record shape every analysis path returns: a JSON object with the keys
    `analysis`, `score` and `recommendations`, in that order.
   */
  function AnalysisRecord(analysis: string, score: int, recommendations: seq<string>): (r: Json)
    ensures r.JObj? && UniqueKeys(r.fields)
    ensures Lookup(r.fields, "analysis") == Some(JStr(analysis))
    ensures Lookup(r.fields, "score") == Some(JNum(score as real))
    ensures Lookup(r.fields, "recommendations") == Some(StrArray(recommendations))
  {
    var fields := [("analysis", JStr(analysis)), ("score", JNum(score as real)), ("recommendations", StrArray(recommendations))];
    LookupUnique(fields, 0);
    LookupUnique(fields, 1);
    LookupUnique(fields, 2);
    JObj(fields)
  }

  /** A JSON array of strings, as a Python list of `str` serialises. */
  function StrArray(xs: seq<string>): (r: Json)
    ensures r.JArr? && |r.items| == |xs|
    ensures forall i :: 0 <= i < |xs| ==> r.items[i] == JStr(xs[i])
  {
    JArr(seq(|xs|, i requires 0 <= i < |xs| => JStr(xs[i])))
  }
}

=== FILE: text.dfy ===
/**
  String helpers the evaluator relies on: ASCII lower-casing (`str.lower`),
  substring search (`in` on strings), prefix and suffix tests, Python's
  `str.strip` and the decimal rendering of an integer inside an f-string.
 */
module Text {
  import opened Wrappers

  /** `c` is an upper-case ASCII letter. */
  predicate IsUpper(c: char) {
    'A' <= c <= 'Z'
  }

  /** Lower-cases one ASCII letter and leaves every other character alone. */
  function LowerChar(c: char): (r: char)
    ensures !IsUpper(r)
    ensures !IsUpper(c) ==> r == c
  {
    if IsUpper(c) then (c as int - 'A' as int + 'a' as int) as char else c
  }

  /** `str.lower()` restricted to ASCII. */
  function Lower(s: string): (r: string)
    ensures |r| == |s|
    ensures forall i :: 0 <= i < |s| ==> r[i] == LowerChar(s[i])
  {
    if |s| == 0 then [] else [LowerChar(s[0])] + Lower(s[1..])
  }

  /** Lower-casing is idempotent: a lowered string has no upper-case letter left. */
  lemma LowerIdempotent(s: string)
    ensures Lower(Lower(s)) == Lower(s)
    ensures forall i :: 0 <= i < |s| ==> !IsUpper(Lower(s)[i])
  {
  }

  /** `w` occurs in `s` starting at index `p`. */
  predicate OccursAt(s: string, w: string, p: nat) {
    p + |w| <= |s| && s[p..p + |w|] == w
  }

  /** Leftmost index at or after `from` where `w` occurs in `s`, the search behind `w in s`. */
  function FindFrom(s: string, w: string, from: nat): (r: Option<nat>)
    requires from <= |s|
    ensures r.Some? ==> from <= r.value && OccursAt(s, w, r.value)
    ensures r.Some? ==> forall q :: from <= q < r.value ==> !OccursAt(s, w, q)
    ensures r.None? ==> forall q :: from <= q ==> !OccursAt(s, w, q)
    decreases |s| - from
  {
    if OccursAt(s, w, from) then Some(from)
    else if from == |s| then None
    else FindFrom(s, w, from + 1)
  }

  /** Python's `w in s` for strings. */
  predicate Contains(s: string, w: string) {
    FindFrom(s, w, 0).Some?
  }

  /** An occurrence inside a slice is an occurrence in the whole string, shifted by the slice's start. */
  lemma OccursInSlice(s: string, lo: nat, hi: nat, w: string, p: nat)
    requires lo <= hi <= |s| && OccursAt(s[lo..hi], w, p)
    ensures OccursAt(s, w, lo + p)
  {
    var inner := s[lo..hi];
    assert p + |w| <= |inner|;
    var a, b := inner[p..p + |w|], s[lo + p..lo + p + |w|];
    assert forall m :: 0 <= m < |a| ==> a[m] == b[m];
    assert a == b;
  }

  /** Substring search agrees with the existence of an occurrence, in both directions. */
  lemma ContainsIff(s: string, w: string)
    ensures Contains(s, w) <==> exists p :: OccursAt(s, w, p)
  {
    if !Contains(s, w) {
      assert forall q :: 0 <= q ==> !OccursAt(s, w, q);
    }
  }

  /** An occurrence inside a piece of a concatenation is an occurrence in the whole. */
  lemma ContainsInConcat(a: string, b: string, w: string)
    requires Contains(b, w)
    ensures Contains(a + b, w)
  {
    var p := FindFrom(b, w, 0).value;
    assert (a + b)[|a| + p..|a| + p + |w|] == b[p..p + |w|];
    assert OccursAt(a + b, w, |a| + p);
    ContainsIff(a + b, w);
  }

  /** Same, for the left piece. */
  lemma ContainsInPrefix(a: string, b: string, w: string)
    requires Contains(a, w)
    ensures Contains(a + b, w)
  {
    var p := FindFrom(a, w, 0).value;
    assert (a + b)[p..p + |w|] == a[p..p + |w|];
    assert OccursAt(a + b, w, p);
    ContainsIff(a + b, w);
  }

  /** A three-piece concatenation starts with its first piece, ends with its last and contains the middle one. */
  lemma ConcatParts(a: string, b: string, c: string)
    ensures StartsWith(a + b + c, a) && EndsWith(a + b + c, c) && Contains(a + b + c, b)
  {
    assert (a + b + c)[..|a|] == a;
    assert (a + b + c)[|a + b + c| - |c|..] == c;
    assert (a + b + c)[|a|..|a| + |b|] == b;
    assert OccursAt(a + b + c, b, |a|);
    ContainsIff(a + b + c, b);
  }

  /** A concatenation ends with its second piece. */
  lemma EndsWithAppend(a: string, b: string)
    ensures EndsWith(a + b, b)
  {
    assert (a + b)[|a + b| - |b|..] == b;
  }

  /** Ending with a string that ends with `u` is ending with `u`. */
  lemma EndsWithTrans(s: string, t: string, u: string)
    requires EndsWith(s, t) && EndsWith(t, u)
    ensures EndsWith(s, u)
  {
    assert s[|s| - |u|..] == t[|t| - |u|..];
  }

  /** Some word of `words` occurs in `s`: `any(word in s for word in words)`. */
  predicate ContainsAny(s: string, words: seq<string>) {
    exists i :: 0 <= i < |words| && Contains(s, words[i])
  }

  /** `s.startswith(p)`. */
  predicate StartsWith(s: string, p: string) {
    |p| <= |s| && s[..|p|] == p
  }

  /** `s.endswith(x)`. */
  predicate EndsWith(s: string, x: string) {
    |x| <= |s| && s[|s| - |x|..] == x
  }

  /** `s.endswith(tuple)`: some suffix of the tuple matches. */
  predicate EndsWithAny(s: string, xs: seq<string>) {
    exists i :: 0 <= i < |xs| && EndsWith(s, xs[i])
  }

  /** The characters `str.isspace` accepts, and so the ones `str.strip()` removes. */
  predicate IsSpace(c: char) {
    || c == ' ' || c == '\t' || c == '\n' || c == '\r'
    || c == '\U{000B}' || c == '\U{000C}'
    || '\U{001C}' <= c <= '\U{001F}'
    || c == '\U{0085}' || c == '\U{00A0}' || c == '\U{1680}'
    || '\U{2000}' <= c <= '\U{200A}'
    || c == '\U{2028}' || c == '\U{2029}' || c == '\U{202F}' || c == '\U{205F}' || c == '\U{3000}'
  }

  /** `s.lstrip()`. */
  function TrimStart(s: string): (r: string)
    ensures |r| <= |s| && r == s[|s| - |r|..]
    ensures forall i :: 0 <= i < |s| - |r| ==> IsSpace(s[i])
    ensures |r| > 0 ==> !IsSpace(r[0])
  {
    if |s| > 0 && IsSpace(s[0]) then TrimStart(s[1..]) else s
  }

  /** `s.rstrip()`. */
  function TrimEnd(s: string): (r: string)
    ensures |r| <= |s| && r == s[..|r|]
    ensures forall i :: |r| <= i < |s| ==> IsSpace(s[i])
    ensures |r| > 0 ==> !IsSpace(r[|r| - 1])
  {
    if |s| > 0 && IsSpace(s[|s| - 1]) then TrimEnd(s[..|s| - 1]) else s
  }

  /** `s.strip()`. */
  function Strip(s: string): string {
    TrimEnd(TrimStart(s))
  }

  /**
    `s.strip().startswith(c)` for a non-space character holds exactly when the
    first character of `s` that is not white space is `c`.
   */
  lemma StripStartsWithIff(s: string, c: char)
    requires !IsSpace(c)
    ensures StartsWith(Strip(s), [c]) <==>
      exists i :: 0 <= i < |s| && s[i] == c && forall j :: 0 <= j < i ==> IsSpace(s[j])
  {
    StripHead(s, c);
    TrimStartHead(s, c);
  }

  /** `strip()` starts with a non-space character exactly when `lstrip()` does. */
  lemma StripHead(s: string, c: char)
    requires !IsSpace(c)
    ensures StartsWith(Strip(s), [c]) <==> |TrimStart(s)| > 0 && TrimStart(s)[0] == c
  {
    var t := TrimStart(s);
    var u := TrimEnd(t);
    assert Strip(s) == u;
    if |t| > 0 {
      TrimEndKeepsHead(t);
      assert StartsWith(u, [c]) <==> u[0] == c;
    }
  }

  /** `rstrip()` keeps a leading character that is not white space. */
  lemma TrimEndKeepsHead(t: string)
    requires |t| > 0 && !IsSpace(t[0])
    ensures |TrimEnd(t)| > 0 && TrimEnd(t)[0] == t[0]
  {
  }

  /** `lstrip()` starts with a non-space character exactly when it is the first non-space one. */
  lemma TrimStartHead(s: string, c: char)
    requires !IsSpace(c)
    ensures |TrimStart(s)| > 0 && TrimStart(s)[0] == c <==>
      exists i :: 0 <= i < |s| && s[i] == c && forall j :: 0 <= j < i ==> IsSpace(s[j])
  {
    var t := TrimStart(s);
    var k := |s| - |t|;
    if |t| > 0 && t[0] == c {
      assert s[k] == t[0];
      assert 0 <= k < |s| && s[k] == c && forall j :: 0 <= j < k ==> IsSpace(s[j]);
    }
    if exists i :: 0 <= i < |s| && s[i] == c && forall j :: 0 <= j < i ==> IsSpace(s[j]) {
      var i :| 0 <= i < |s| && s[i] == c && forall j :: 0 <= j < i ==> IsSpace(s[j]);
      FirstNonSpace(s, i);
    }
  }

  /** `lstrip` stops exactly at the first character that is not white space. */
  lemma FirstNonSpace(s: string, i: nat)
    requires i < |s| && !IsSpace(s[i]) && forall j :: 0 <= j < i ==> IsSpace(s[j])
    ensures |TrimStart(s)| == |s| - i && TrimStart(s)[0] == s[i]
  {
    var k := |s| - |TrimStart(s)|;
    assert k <= i;
  }

  /** One decimal digit. */
  function DigitChar(d: nat): (r: char)
    requires d < 10
    ensures '0' <= r <= '9'
  {
    ('0' as int + d) as char
  }

  /** The decimal rendering of a natural number, as `f"{n}"` writes it. */
  function Decimal(n: nat): (r: string)
    ensures |r| >= 1
    ensures forall i :: 0 <= i < |r| ==> '0' <= r[i] <= '9'
    ensures |r| > 1 ==> r[0] != '0'
  {
    if n < 10 then [DigitChar(n)] else Decimal(n / 10) + [DigitChar(n % 10)]
  }

  /** `s` consists of decimal digits only. */
  predicate AllDigits(s: string) {
    forall i :: 0 <= i < |s| ==> '0' <= s[i] <= '9'
  }

  /** The value of a string of decimal digits: the inverse of `Decimal`. */
  function DecimalValue(s: string): nat
    requires AllDigits(s)
  {
    if |s| == 0 then 0
    else DecimalValue(s[..|s| - 1]) * 10 + (s[|s| - 1] as int - '0' as int)
  }

  /** Reading back the decimal rendering of `n` gives `n`. */
  lemma {:induction false} DecimalRoundTrip(n: nat)
    ensures DecimalValue(Decimal(n)) == n
  {
    if n >= 10 {
      DecimalRoundTrip(n / 10);
      var s := Decimal(n);
      assert s[..|s| - 1] == Decimal(n / 10);
    }
  }

  /** Distinct numbers render differently. */
  lemma DecimalInjective(m: nat, n: nat)
    ensures Decimal(m) == Decimal(n) <==> m == n
  {
    if Decimal(m) == Decimal(n) {
      DecimalRoundTrip(m);
      DecimalRoundTrip(n);
    }
  }
}

=== FILE: wrappers.dfy ===
/** Failure-carrying wrappers shared by every module of the model. */
module Wrappers {

  /** A value that may be absent: Python's `Optional[T]` and `None`. */
  datatype Option<+T> = None | Some(value: T)

  /** The outcome of a step that may raise: the value or the kind of error raised. */
  datatype Result<+T, +E> = Success(value: T) | Failure(error: E)
}
